=== FILE: README.md ===
# Property inspection portal — a Dafny model

The system is a property-inspection web application. Customers upload a
photo of a building, a backend detects cracks in it and rates the
structural risk, and the customer then files the property with its details.
Customers can also manage their stored properties and file complaints.
Staff and administrators browse tickets, users, services and reports. The
front end is a Next.js/React application that keeps its data in the
browser's `localStorage`. The backend is a small FastAPI service.

This project models the parts of that system that make decisions, and
proves what they guarantee:

- **Route guard** (`RouteGuard`): the request middleware's decision
  between redirecting and passing a request on, with its prefix-matching
  quirks reproduced.
- **Upload, analysis and property submission** (`Catalog`, `PropertyForm`):
  page classes whose fields change step by step and that share one
  `Storage.LocalStorage` object (a `map<string, string>`). The network
  result is an input.
- **Stored lists** (`MyProperties`, `Complaints`): append, guarded append,
  delete by index and form reset. Each handler proves that the list on the
  page and the list in the store stay equal (`Synced`).
- **Reports** (`Reports`): the CSV content, the generated report's id and
  name, the download file name and the per-type counts.
- **Search and filters** (`Tickets`, `Users`, `Services`, `StaffSidebar`):
  order-preserving filters, case-insensitive search, and which sidebar link
  is highlighted.
- **Backend** (`Detections`, `RiskAnalysis`, `Upload`): post-processing of
  the detector's output rows, the rule-based risk assessment, the
  assessment used when the language model replies without JSON, the
  file-name check, and the `/analyze` response.

Supporting modules: `Wrappers` (Option/Result), `Text` (string operations as
JavaScript and Python define them), `Lists` (order-preserving filter and
remove-at), `Json` (the JSON text of the stored lists, with a proved
parse/stringify round trip) and `Storage` (the browser store).
`Bands` relates the front end's risk-bar colours to the backend's risk
levels.

Clock readings, random sizes, identifiers, file contents, network outcomes
and database outcomes are parameters of the operations that use them.

Where the code and its design description disagree, the model follows the
code:

- The property form's submit handler checks no fields.
- It removes only `propertyImage`, not `analysisResult`.
- It does not copy the analysis into the stored entry.
- A session needs a cookie with a non-empty value; the cookie's presence
  alone is not enough.
- A failed request shows the error's own message. The fixed fallback text
  is used only when that message is empty.
- The backend's lowest urgency is `LOW`, not `ROUTINE`.
- Stored properties get no identifier.

## Model

| member | source | states |
|---|---|---|
| RouteGuard.SomePrefix | 67/middleware.ts:22 | the `some(startsWith)` test holds iff some listed route is a prefix of the path |
| RouteGuard.ProtectedIff | 67/middleware.ts:12-22 | a path is protected iff it starts with `/portal/`, `/admin` or `/staff` (the four longer portal routes add nothing) |
| RouteGuard.ProtectedExamples | 67/middleware.ts:12-22 | `/portal/login`, `/portal/signup`, `/administrator` and `/staff/tickets/42` are protected |
| RouteGuard.UnprotectedExamples | 67/middleware.ts:12-22 | `/portal` and `/` are not protected |
| RouteGuard.SessionIff | 67/middleware.ts:25-28 | there is a session iff either cookie holds a non-empty value; an empty first cookie falls through to the second |
| RouteGuard.GuardCases | 67/middleware.ts:7-42 | the full decision table: `/portal/dashboard` always goes to `/portal/`; a protected path without a session goes to login with `from` = the path; login/signup with a session go to the dashboard; every other request passes, and only those |
| RouteGuard.LoginRedirectsToItself | 67/middleware.ts:31-35 | without a session the login page redirects to `/portal/login?from=/portal/login` (Findings) |
| RouteGuard.GuardCorrectedSpec | 67/middleware.ts:31-40 | the corrected guard lets visitors without a session reach login and signup, never redirects to login from login or to the same path, and agrees with the original elsewhere |
| Storage.LocalStorage.GetItem | 67/src/app/portal/property-form/page.tsx:28 | `getItem` gives the stored value iff the key is present |
| Storage.LocalStorage.SetItem | 67/src/app/portal/catalog/page.tsx:34 | `setItem` updates exactly one key |
| Storage.LocalStorage.RemoveItem | 67/src/app/portal/catalog/page.tsx:79-80 | `removeItem` deletes exactly one key |
| Storage.ReadList | 67/src/app/portal/property-form/page.tsx:47 | an absent key or an empty stored text reads as "no list" |
| Storage.ReadWritten | 67/src/app/portal/my-properties/page.tsx:81 | a list written to the store is read back unchanged |
| Json.Get | 67/src/app/portal/property-form/page.tsx:35-41 | a key lookup finds a value iff the key is present |
| Json.GetFirst | 67/src/app/portal/complaints/page.tsx:54-63 | a lookup finds the first member with the key |
| Json.Set | 67/src/app/portal/property-form/page.tsx:37-40 | `{...prev, [name]: value}` sets that key, keeps every other key's value, and appends a new key at the end |
| Json.ParseStringify | 67/src/app/portal/property-form/page.tsx:47-49 | parsing the JSON text of a list of flat objects gives the list back |
| Json.ParseStringBodyEscape | 67/src/app/portal/property-form/page.tsx:47-49 | every string, control characters included, reads back from its escaped text and the rest of the input is untouched |
| Json.LineBreakExample | 67/src/app/portal/complaints/page.tsx:213 | a line break typed into a text area is written as `\n` and reads back as a line break; a raw line break inside a string is refused |
| Catalog.ErrorText | 67/src/app/portal/catalog/page.tsx:57-69 | empty iff the body was delivered; a non-ok response shows `API Error: ` + status text; other failures show their message, or the fixed fallback when it is empty |
| Catalog.RiskBarBands | 67/src/app/portal/catalog/page.tsx:206-209 | bands at 80/60/30; a missing score is green; a higher score never gets a milder colour |
| Catalog.CatalogPage.constructor | 67/src/app/portal/catalog/page.tsx:17-23 | the page starts empty, not analysing, without error |
| Catalog.CatalogPage.LoadProperties | 67/src/app/portal/catalog/page.tsx:17-23 | a stored list, if there is one, becomes the page's list; nothing else changes |
| Catalog.CatalogPage.StartAnalysis | 67/src/app/portal/catalog/page.tsx:44-46 | analysing starts with the error and the result cleared |
| Catalog.CatalogPage.OnImageRead | 67/src/app/portal/catalog/page.tsx:29-37 | the image is shown and stored under `propertyImage` before analysis starts; a failed read is shown as nothing, stored as the text "null", and the analysis still starts |
| Catalog.CatalogPage.FinishAnalysis | 67/src/app/portal/catalog/page.tsx:57-72 | a delivered body, even a falsy one (`null`, `false`, `0`, `""`), is kept and stored under `analysisResult`; a failure writes nothing and shows its error; analysing ends either way |
| Catalog.CatalogPage.HandleImageUpload | 67/src/app/portal/catalog/page.tsx:25-73 | the whole upload: image stored (the text "null" after a failed read), then result stored or error shown, analysing over; "Next" is offered exactly when the read gave a non-empty image (without one the page shows the upload widget and no button, page.tsx lines 114 and 264) and the request failed or delivered a truthy body; a result counts only when the body is truthy |
| Catalog.CatalogPage.ClearImage | 67/src/app/portal/catalog/page.tsx:75-81 | image, result and error reset, both keys removed from the store, "Next" no longer offered |
| Catalog.CatalogPage.Next | 67/src/app/portal/catalog/page.tsx:264-271 | offered only beside a shown (non-empty) image and with a truthy result or an error; always writes that image, and writes the analysis only when it is truthy |
| PropertyForm.EmptyFormFields | 67/src/app/portal/property-form/page.tsx:13-24 | every field of the initial form is empty and it has no image |
| PropertyForm.Entry | 67/src/app/portal/property-form/page.tsx:48 | the stored entry is the form with `image` set (appended when new) and every other field unchanged; no analysis is added |
| PropertyForm.SuccessNeedsImage | 67/src/app/portal/property-form/page.tsx:83-111 | the success screen needs an image, so after a submit the "No Photo Found" screen shows (Findings) |
| PropertyForm.CorrectedShowsSuccess | 67/src/app/portal/property-form/page.tsx:94-111 | with the success check first, a finished submit shows its message, and nothing else changes |
| PropertyForm.PropertyFormPage.constructor | 67/src/app/portal/property-form/page.tsx:9-24 | the page starts loading, unsubmitted, with the empty form |
| PropertyForm.PropertyFormPage.Load | 67/src/app/portal/property-form/page.tsx:26-33 | the image is taken iff a non-empty one is stored; loading ends |
| PropertyForm.PropertyFormPage.ChangeField | 67/src/app/portal/property-form/page.tsx:35-41 | the named field takes the typed value; nothing else changes |
| PropertyForm.PropertyFormPage.Submit | 67/src/app/portal/property-form/page.tsx:43-71 | exactly one entry (form + image) is appended to the stored list (absent = empty); the store holds the page's list; `propertyImage` is removed and `analysisResult` kept; the form and image are reset; an unparsable stored list changes nothing |
| MyProperties.EmptyFormFields | 67/src/app/portal/my-properties/page.tsx:26-35 | every field of the initial form is empty and it has no image |
| MyProperties.NewProperty | 67/src/app/portal/my-properties/page.tsx:74-77 | the new entry is the form plus `image`, other fields unchanged |
| MyProperties.MyPropertiesPage.constructor | 67/src/app/portal/my-properties/page.tsx:21-35 | the page starts empty, loading, with the empty form |
| MyProperties.MyPropertiesPage.Load | 67/src/app/portal/my-properties/page.tsx:39-46 | the stored list, if present, is shown; starting from an empty page the page and the store agree |
| MyProperties.MyPropertiesPage.OpenAddForm | 67/src/app/portal/my-properties/page.tsx:165 | shows the modal form only |
| MyProperties.MyPropertiesPage.OnImageRead | 67/src/app/portal/my-properties/page.tsx:52-54 | holds the read image only, or nothing after a failed read |
| MyProperties.MyPropertiesPage.RemoveImage | 67/src/app/portal/my-properties/page.tsx:240 | drops the held image only |
| MyProperties.MyPropertiesPage.ChangeField | 67/src/app/portal/my-properties/page.tsx:59-65 | the named field takes the typed value |
| MyProperties.MyPropertiesPage.AddProperty | 67/src/app/portal/my-properties/page.tsx:67-96 | without an image nothing changes; with one, exactly one entry is appended at the end, the store equals the new list, and the form is reset and closed |
| MyProperties.MyPropertiesPage.CloseForm | 67/src/app/portal/my-properties/page.tsx:98-111 | the modal is hidden, the image dropped and the form emptied |
| MyProperties.MyPropertiesPage.DeleteProperty | 67/src/app/portal/my-properties/page.tsx:113-117 | exactly the entry at the index goes (same multiset minus it), the rest keep their order, an out-of-range index changes nothing, and the store equals the result |
| MyProperties.MyPropertiesPage.EditProperty | 67/src/app/portal/my-properties/page.tsx:119-123 | the index is stored as decimal text that parses back to it; the list is untouched |
| Lists.RemoveAt | 67/src/app/portal/my-properties/page.tsx:114 | removing at an index keeps the elements before it and shifts the ones after it; out of range, nothing changes |
| Complaints.WithField | 67/src/app/portal/complaints/page.tsx:39-45 | the named field of the three takes the value; other names change nothing |
| Complaints.NewComplaintFromForm | 67/src/app/portal/complaints/page.tsx:54-58 | the new complaint's id is `CMP-` followed by the clock reading, and its title, description and category are the form's |
| Complaints.NewComplaintInitialState | 67/src/app/portal/complaints/page.tsx:59-62 | both dates are today's date, the status is `open` and the progress 0 |
| Complaints.StatusColourSpec | 67/src/app/portal/complaints/page.tsx:78-91 | the known statuses get distinct colours; a status gets the `closed` colour iff it is not one of the other three |
| Complaints.ComplaintsPage.constructor | 67/src/app/portal/complaints/page.tsx:21-28 | the page starts empty, loading, with title and description empty and category `general` |
| Complaints.ComplaintsPage.Load | 67/src/app/portal/complaints/page.tsx:30-37 | the stored list, if present, is shown; starting from an empty page the page and the store agree |
| Complaints.ComplaintsPage.OpenForm | 67/src/app/portal/complaints/page.tsx:146 | shows the form only |
| Complaints.ComplaintsPage.ChangeField | 67/src/app/portal/complaints/page.tsx:39-45 | the form changes as `WithField` says |
| Complaints.ComplaintsPage.Submit | 67/src/app/portal/complaints/page.tsx:47-76 | an empty title or description changes nothing; otherwise exactly one new complaint is appended, the store equals the list, and the form is reset and closed |
| Reports.FindLabel | 67/src/app/admin/reports/page.tsx:107 | `find` returns a label paired with the value, or nothing iff no entry has that value |
| Reports.GeneratedNameSpec | 67/src/app/admin/reports/page.tsx:113 | the name is the label (`undefined` iff the type is not offered), ` - `, and the date range with only its first character upper-cased |
| Reports.GeneratedNameExample | 67/src/app/admin/reports/page.tsx:26-39 | the default form names its report `Performance Report - Monthly` |
| Reports.CsvLines | 67/src/app/admin/reports/page.tsx:70-73 | the CSV splits into the header line and one `name,value` line per metric, in order, with no trailing newline |
| Reports.GenerateContent | 67/src/app/admin/reports/page.tsx:55-78 | `csv` gives the CSV text, `pdf`/`xlsx` the indented JSON, anything else the compact JSON |
| Reports.ReplaceLeavesNoSpace | 67/src/app/admin/reports/page.tsx:92 | the file-name stem contains no whitespace |
| Reports.ReplaceKeepsWords | 67/src/app/admin/reports/page.tsx:92 | a name without whitespace is used as it is |
| Reports.ReplaceRunBetweenWords | 67/src/app/admin/reports/page.tsx:133 | a whole whitespace run between words becomes one `_` |
| Reports.Download | 67/src/app/admin/reports/page.tsx:80-99 | a listed report always downloads as CSV, and the content does not depend on the report |
| Reports.DownloadLines | 67/src/app/admin/reports/page.tsx:86-87 | every download is the header line and the four metric lines |
| Reports.TypeCountIsMultiplicity | 67/src/app/admin/reports/page.tsx:179 | a shown count is the number of reports of exactly that type |
| Reports.CountAfterGenerate | 67/src/app/admin/reports/page.tsx:119 | generating a report raises its type's count by one and leaves the others |
| Reports.ReportsPage.constructor | 67/src/app/admin/reports/page.tsx:15-32 | the page starts with the five sample reports, whose ids are distinct and within 1..5 |
| Reports.ReportsPage.SetModal | 67/src/app/admin/reports/page.tsx:151 | opens or closes the modal only |
| Reports.ReportsPage.SetForm | 67/src/app/admin/reports/page.tsx:285 | replaces the form only; the form captured by a running generation is kept |
| Reports.ReportsPage.StartGenerate | 67/src/app/admin/reports/page.tsx:101-102 | generating starts and the form at the click is captured; the button is disabled while it runs |
| Reports.ReportsPage.FinishGenerate | 67/src/app/admin/reports/page.tsx:107-140 | the new report goes first with id = old length + 1 (new and distinct); the old reports keep their order; the name, type, file name and content follow the form captured at the click, not the current one; generating and the modal end |
| Reports.EditWhileGenerating | 67/src/app/admin/reports/page.tsx:101-141 | an edit made while a report is generating changes the form but not the report, which follows the form at the click |
| Tickets.FilteredTickets | 67/src/app/staff/tickets/page.tsx:21-27 | an order-preserving subsequence; a ticket is kept iff the lower-cased term is in its lower-cased subject, customer or id and the status is `all` or equal |
| Tickets.NoFilterListsAll | 67/src/app/staff/tickets/page.tsx:7-8 | an empty term with `all` keeps every ticket |
| Tickets.EmptyMessageIff | 67/src/app/staff/tickets/page.tsx:126 | the "no tickets" message shows iff no ticket matches |
| Tickets.StatusNarrows | 67/src/app/staff/tickets/page.tsx:25 | a chosen status only narrows the `all` list |
| Tickets.SearchIgnoresCase | 67/src/app/staff/tickets/page.tsx:22-24 | searching for a term or for its lower-case form gives the same list |
| Tickets.StatusesOffered | 67/src/app/staff/tickets/page.tsx:53-56 | every ticket's status is one of the drop-down's options |
| Users.FilteredUsers | 67/src/app/users/page.tsx:17-21 | an order-preserving subsequence; a user is kept iff the lower-cased query is in the lower-cased name or email |
| Users.EmptyQueryListsAll | 67/src/app/users/page.tsx:7 | an empty query keeps every user |
| Users.SearchIgnoresCase | 67/src/app/users/page.tsx:18-20 | the query's letter case does not matter |
| Users.RoleAndStatusIgnored | 67/src/app/users/page.tsx:18-20 | role and status never affect the match |
| Users.LongerQueryNarrows | 67/src/app/users/page.tsx:17-21 | typing more never finds more users |
| Services.FilteredServices | 67/src/app/admin/services/page.tsx:17-20 | `all` gives the list unchanged; any other filter keeps, in order, exactly the services whose lower-cased status equals it |
| Services.UpperCaseFilterShowsNothing | 67/src/app/admin/services/page.tsx:20 | a filter other than `all` with an upper-case letter shows nothing |
| Services.OwnStatusShows | 67/src/app/admin/services/page.tsx:20 | every service shows under its own lower-cased status |
| Services.StatusesReachable | 67/src/app/admin/services/page.tsx:37 | every status in the grid has a button (`all`, `active`, `maintenance`) |
| Services.CaptionNamesFilter | 67/src/app/admin/services/page.tsx:47 | a caption is its filter with only the first letter's case changed |
| Services.FilterLabels | 67/src/app/admin/services/page.tsx:37-47 | the captions are `All`, `Active` and `Maintenance` |
| StaffSidebar.IsActiveIff | 67/src/components/StaffSidebar.tsx:11-13 | a link is active iff the path starts with its href and ends there or continues with `/` |
| StaffSidebar.DashboardOnlyExact | 67/src/components/StaffSidebar.tsx:28 | the dashboard link is highlighted iff the path is exactly `/staff` |
| StaffSidebar.AtMostOneHighlighted | 67/src/components/StaffSidebar.tsx:28-64 | no path highlights two links |
| StaffSidebar.Examples | 67/src/components/StaffSidebar.tsx:40 | `/staff/tickets/42` highlights Tickets; `/staff/ticketsarchive` does not; `/staff/tickets` does not highlight the dashboard |
| Text.IncludesIff | 67/src/app/staff/tickets/page.tsx:22 | `includes` holds iff the term occurs at some position |
| Text.Capitalize | 67/src/app/admin/services/page.tsx:47 | same length, the first character upper-cased, and everything after it unchanged |
| Text.SplitJoin | 67/src/app/admin/reports/page.tsx:72 | splitting a joined list gives it back when no piece holds the separator |
| Text.AfterLastOf | backend/simple_api.py:311 | `split(".")[-1]` gives the text after the last dot |
| Lists.FilterSpec | 67/src/app/users/page.tsx:17-21 | a filter keeps exactly the elements that satisfy its predicate, in order, each as often as it occurs |
| Detections.KeepIffScore | backend/simple_api.py:104-105 | a row is kept iff its raw score is above 4 (percent) |
| Detections.SeverityOf | backend/simple_api.py:115 | high iff above 0.8, medium iff in (0.6, 0.8], low otherwise |
| Detections.PostProcess | backend/simple_api.py:100-118 | the loop returns exactly the kept detections, in row order |
| Detections.KeptDetectionsSpec | backend/simple_api.py:103-116 | never more detections than rows; each is a crack above the threshold with its confidence's severity; a detection is returned iff a kept row produced it |
| Detections.KeptDetectionsAppend | backend/simple_api.py:103-116 | the rows are handled one after another, each independently |
| Detections.MockSeverityDiffers | backend/simple_api.py:81-86 | the mock detection's fixed `medium` is not what its 0.85 confidence would get from the rule |
| Detections.RunInference | backend/simple_api.py:77-118 | no model gives the mock detection, an unreadable image fails with `Could not load image`, an exception from preprocessing, the model run or a row fails with its own text, otherwise the kept detections |
| RiskAnalysis.Trunc | backend/simple_api.py:250 | `int()` truncates toward zero |
| RiskAnalysis.RoundHalfEven | backend/simple_api.py:243 | the rounded value is within one half of the input, strictly unless the input ends in .5, and such a tie goes to the even neighbour |
| RiskAnalysis.FormatPercentReadsBack | backend/simple_api.py:243-246 | the `.1%` text is digits, `.`, one digit, `%`, and reads back as the value within half a tenth of a percent |
| RiskAnalysis.FormatPercentExample | backend/simple_api.py:243 | 0.85 prints as `85.0%` |
| RiskAnalysis.Band | backend/simple_api.py:225-236 | CRITICAL iff ≥ 80, HIGH iff in [60, 80), MEDIUM iff in [30, 60), LOW iff < 30 |
| RiskAnalysis.BandPairs | backend/simple_api.py:225-236 | level and urgency always come as CRITICAL/IMMEDIATE, HIGH/URGENT, MEDIUM/MODERATE or LOW/LOW |
| RiskAnalysis.BandOfTrunc | backend/simple_api.py:225-250 | truncating the score never moves it to another band |
| RiskAnalysis.RawScoreRange | backend/simple_api.py:217-222 | with non-negative confidences the capped score is within 0..100 |
| RiskAnalysis.Fallback | backend/simple_api.py:210-256 | marked `rule_based_fallback`; level and urgency are the band of the capped score |
| RiskAnalysis.FallbackScoreRange | backend/simple_api.py:217-222 | with non-negative confidences the reported score is a whole number in 0..100 |
| RiskAnalysis.FallbackScoreInBand | backend/simple_api.py:225-250 | the reported integer score lies in the band of the reported level |
| RiskAnalysis.FallbackNoDetections | backend/simple_api.py:239-241 | no detections: score 0, LOW/LOW, the all-clear summary, one recommendation |
| RiskAnalysis.FallbackRecommendations | backend/simple_api.py:239-247 | one recommendation without detections, two with any |
| RiskAnalysis.FallbackSingle | backend/simple_api.py:217-236 | one detection scores 15..65 and is never CRITICAL |
| RiskAnalysis.FallbackOfMock | backend/simple_api.py:79-86 | the mock detection is assessed 60, HIGH/URGENT, with the one-crack summary at 85.0% |
| RiskAnalysis.Shorten | backend/simple_api.py:190 | at most 203 characters; a reply of up to 200 is kept whole, a longer one is cut to 200 and marked `...` |
| RiskAnalysis.NoJsonAnalysis | backend/simple_api.py:186-193 | score min(25n, 100); HIGH/URGENT iff n > 3, else MEDIUM/MODERATE; short summary; one recommendation |
| RiskAnalysis.NoJsonScoreCap | backend/simple_api.py:188 | the no-JSON score is within 0..100 and is 100 iff n ≥ 4 |
| RiskAnalysis.AnalyzeWithLlm | backend/simple_api.py:120-208 | the model's JSON iff it replied with non-empty text holding decodable JSON; the no-JSON answer for a non-empty reply without JSON; the fallback with the raw reply on a decode error; the plain fallback when unconfigured, failing, silent or answering with empty text (`result and result[0]` at l.176) |
| RiskAnalysis.FallbackMarked | backend/simple_api.py:186-199 | every structured answer except the no-JSON one (a non-empty reply without JSON) is marked as the fallback |
| Bands.BarColourOfLevel | 67/src/app/portal/catalog/page.tsx:206-209 | the bar colour of any score is the colour of the backend level for that score |
| Bands.FallbackBarColour | backend/simple_api.py:225-250 | the fallback's reported score is coloured as its reported level |
| Upload.ExtensionOf | backend/simple_api.py:311 | the extension is the last dot-free piece, case kept |
| Upload.ExtensionOfSuffix | backend/simple_api.py:307-311 | a name whose lower-cased form ends in `.e` has an extension that lower-cases to `e` |
| Upload.ValidExtension | backend/simple_api.py:307-311 | an accepted name's extension lower-cases to jpg, jpeg, png or bmp |
| Upload.StoredNameValid | backend/simple_api.py:311-312 | the stored file name of an accepted upload is itself accepted |
| Upload.ExtensionExample | backend/simple_api.py:311 | `house.photo.JPG` has extension `JPG` |
| Upload.UpperCaseNameAccepted | backend/simple_api.py:307 | `House.JPG` is accepted |
| Upload.TextNameRejected | backend/simple_api.py:307 | `notes.txt` is rejected |
| Upload.Process | backend/simple_api.py:310-352 | a failed write of the upload is answered 500 `Analysis failed: ` + its message whatever the inference would give; an exception from the detector is answered 500 `Analysis failed: ` + its text; an error iff the write failed, the image is unreadable or the detector raised; a success counts its own detections and echoes the name |
| Upload.AnalyzeImage | backend/simple_api.py:300-352 | as written: a rejected name gets a 500 whose detail embeds the 400 (Findings); otherwise the processed response |
| Upload.NeverBadRequest | backend/simple_api.py:305-352 | as written, no request is answered 400 |
| Upload.TextFileGetsServerError | backend/simple_api.py:307-308 | `notes.txt` gets 500 `Analysis failed: 400: Invalid file type. Use JPG, PNG, or BMP.` |
| Upload.AnalyzeImageCorrected | backend/simple_api.py:307-308 | an accepted name is processed as before |
| Upload.CorrectedResponses | backend/simple_api.py:305-352 | corrected: 400 iff the name is rejected; an error iff rejected, the write failed, the image is unreadable or the detector raised; a failed write gives 500 `Analysis failed: ` + its message; a success counts its own detections, carries their assessment, and echoes the name, id and save outcome |

## Left out

- Browser and framework plumbing is not modelled: `FileReader`, `fetch`, `router.push`/`back`, `setTimeout`, `alert`, Blob downloads, rendering and styling. The outcomes of reading a file and of the request are parameters.
- `Date.now()`, `toLocaleDateString()`, `Math.random()`, `uuid4()` and `datetime.now()` are parameters (`now`, `today`, `monthYear`, `sizeText`, `fileId`, `inspectionId`).
- The detector itself is not modelled: ONNX inference and OpenCV preprocessing. Only its outcome is, as `Detections.Inference`: its output rows, or an exception it raised (`Raised`, with the exception's text).
- The Snowflake connection, the Cortex call, `save_to_snowflake` and the regular-expression JSON extraction are outcomes given as inputs (`LlmCall`, `Extraction`, `saved`). So is writing the upload to disk (`WriteOutcome`); where the file lands and the bytes written are not modelled. FastAPI routing and the health endpoints are left out.
- Json.Stringify: the JSON text covers flat objects of strings, natural numbers and `null`, which is all that the stored lists hold. Strings are escaped as `JSON.stringify` escapes them (`\"`, `\\`, the short control escapes, `\u00XX` for the other control characters).
- The analysis payload on the front end is kept as opaque text, its `JSON.stringify` form; only its truthiness is read (`Catalog.Truthy`). The front end reads `analysis.*`, while the backend answers with `risk_analysis`; the model does not assume the two agree.
- Text.ToLower and Text.UpperChar map ASCII letters only. JavaScript's `toLowerCase` and Python's `lower()` also map other scripts.
- Confidences and scores are exact reals, not IEEE floats. RiskAnalysis.FormatPercent therefore rounds ties on the exact value, where Python rounds the binary value. It also prints no sign for a negative value that rounds to zero.
- Reports.GenerateContent: the JSON report text for `pdf`, `xlsx` and other formats is represented by its title and layout, not by its characters.
- Reports: the `downloading` flag and the simulated delays are not modelled.
- Storage.ReadList / Json.Parse: whitespace between tokens and `\u` escapes that name half of a surrogate pair read as `Unparsable`, although `JSON.parse` accepts them. `JSON.stringify` never writes either for these lists, and a string in this model cannot hold a lone surrogate.
- Stored-list reads: a stored text that `JSON.parse` rejects makes the handler throw. The model treats that as "nothing changes" (`Unparsable`). A stored JSON value that is not a list of flat objects is treated the same way.
- The middleware's `matcher` configuration is not modelled: the framework applies it before the middleware runs.
- The cart page, the static pages, the other sidebars and navbars, and the authentication components are outside this model.

## Findings

| source | as written | input that shows it | evidently intended | confidence | as-written member | corrected member |
|---|---|---|---|---|---|---|
| 67/middleware.ts:12-35 | `/portal/` is a protected prefix, so the login page itself is protected | a request for `/portal/login` with no auth cookies is redirected to `/portal/login?from=/portal/login`, again and again | visitors without a session can reach login and signup | not executed | RouteGuard.LoginRedirectsToItself | RouteGuard.GuardCorrectedSpec |
| 67/src/app/portal/property-form/page.tsx:71-111 | submit clears the image, and the "No Photo Found" check runs before the success check | any successful submit: the next render shows "No Photo Found" instead of the success message | the success message shows after a submit | not executed | PropertyForm.SuccessNeedsImage | PropertyForm.CorrectedShowsSuccess |
| backend/simple_api.py:305-352 | the 400 raised for a bad file name is caught by the handler's own `except Exception` | uploading `notes.txt` is answered 500 `Analysis failed: 400: Invalid file type. Use JPG, PNG, or BMP.` | a bad file name is answered 400 | not executed | Upload.TextFileGetsServerError | Upload.CorrectedResponses |

=== FILE: Bands.dfy ===
/**
 * The catalog page colours its risk bar with the same thresholds the
 * backend uses for risk levels, so a score shown on the bar gets the
 * colour of its level.
 */
module Bands {

  import opened Wrappers
  import Catalog
  import RiskAnalysis

  function LevelColour(l: RiskAnalysis.RiskLevel): Catalog.BarColour {
    match l
    case Critical => Catalog.Red
    case High => Catalog.Orange
    case Medium => Catalog.Yellow
    case Low => Catalog.Green
  }

  /** Any score's bar colour is the colour of the level the backend gives it. */
  lemma BarColourOfLevel(score: real)
    ensures Catalog.RiskBarColour(Some(score)) == LevelColour(RiskAnalysis.Band(score).0)
  {
    Catalog.RiskBarBands(score, score);
  }

  /** The fallback's reported score is coloured as its reported level. */
  lemma FallbackBarColour(confidences: seq<real>)
    ensures var a := RiskAnalysis.Fallback(confidences);
      Catalog.RiskBarColour(Some(a.riskScore as real)) == LevelColour(a.level)
  {
    var a := RiskAnalysis.Fallback(confidences);
    RiskAnalysis.FallbackScoreInBand(confidences);
    BarColourOfLevel(a.riskScore as real);
  }
}

=== FILE: Catalog.dfy ===
/**
 * The portal's photo page: a photo is read, stored under `propertyImage`
 * and sent for analysis; the analysis is kept on the page and stored under
 * `analysisResult`; "Clear" forgets both and "Next" hands them on to the
 * property form through the store.
 */
module Catalog {

  import opened Wrappers
  import Json
  import Storage

  const ImageKey := "propertyImage"
  const AnalysisKey := "analysisResult"
  const PropertiesKey := "submittedProperties"

  const FallbackError := "Failed to analyze image. Please try again."

  /**
   * The parsed analysis response body, kept opaque as its `JSON.stringify`
   * text (the text the page stores under `analysisResult`).
   */
  type Payload = string

  /**
   * Whether the parsed body is truthy. The falsy JSON values are `null`,
   * `false`, a zero and the empty string, and `JSON.stringify` writes them
   * as exactly these four texts (a negative zero is written `0`).
   */
  predicate Truthy(payload: Payload) {
    payload != "null" && payload != "false" && payload != "0" && payload != "\"\""
  }

  /** How the single request to the analysis endpoint ended. */
  datatype FetchOutcome =
    | NetworkFailure(message: string)   // `fetch` rejected
    | NotOk(statusText: string)         // `response.ok` was false
    | BadBody(message: string)          // `response.json()` rejected
    | Delivered(payload: Payload)       // the parsed response body

  /** `error.message || 'Failed to analyze image. Please try again.'`. */
  function ErrorMessage(message: string): string {
    if message != "" then message else FallbackError
  }

  /** The text the page shows after the request ends; empty on success. */
  function ErrorText(outcome: FetchOutcome): (r: string)
    ensures outcome.Delivered? <==> r == ""
    ensures outcome.NotOk? ==> r == "API Error: " + outcome.statusText
    ensures outcome.NetworkFailure? || outcome.BadBody? ==>
      r == (if outcome.message == "" then FallbackError else outcome.message)
  {
    match outcome
    case NetworkFailure(m) => ErrorMessage(m)
    case NotOk(statusText) => "API Error: " + statusText
    case BadBody(m) => ErrorMessage(m)
    case Delivered(_) => ""
  }

  /** `localStorage.setItem(key, uploadedImage)` turns `null` into the text "null". */
  function ImageText(image: Option<string>): string {
    if image.Some? then image.value else "null"
  }

  datatype BarColour = Red | Orange | Yellow | Green

  function ColourRank(c: BarColour): nat {
    match c
    case Green => 0
    case Yellow => 1
    case Orange => 2
    case Red => 3
  }

  /** The colour of the risk bar; a missing score counts as 0. */
  function RiskBarColour(score: Option<real>): BarColour {
    var s := if score.Some? then score.value else 0.0;
    if s >= 80.0 then Red
    else if s >= 60.0 then Orange
    else if s >= 30.0 then Yellow
    else Green
  }

  /** The bar colour bands, and their order: a higher score never gets a milder colour. */
  lemma RiskBarBands(a: real, b: real)
    ensures RiskBarColour(Some(a)) == Red <==> a >= 80.0
    ensures RiskBarColour(Some(a)) == Orange <==> 60.0 <= a < 80.0
    ensures RiskBarColour(Some(a)) == Yellow <==> 30.0 <= a < 60.0
    ensures RiskBarColour(Some(a)) == Green <==> a < 30.0
    ensures RiskBarColour(None) == RiskBarColour(Some(0.0)) == Green
    ensures a <= b ==> ColourRank(RiskBarColour(Some(a))) <= ColourRank(RiskBarColour(Some(b)))
  {
  }

  class CatalogPage {
    const store: Storage.LocalStorage
    var uploadedImage: Option<string>
    var submittedProperties: seq<Json.Object>
    var analysisResult: Option<Payload>
    var isAnalyzing: bool
    var analysisError: string

    constructor (store: Storage.LocalStorage)
      ensures this.store == store
      ensures uploadedImage == None && submittedProperties == [] && analysisResult == None
      ensures !isAnalyzing && analysisError == ""
    {
      this.store := store;
      uploadedImage := None;
      submittedProperties := [];
      analysisResult := None;
      isAnalyzing := false;
      analysisError := "";
    }

    /** The mount effect: show the stored property list, if there is one. */
    method LoadProperties()
      modifies this
      ensures submittedProperties ==
        match Storage.ReadList(store.items, PropertiesKey)
        case Loaded(xs) => xs
        case _ => old(submittedProperties)
      ensures uploadedImage == old(uploadedImage) && analysisResult == old(analysisResult)
      ensures isAnalyzing == old(isAnalyzing) && analysisError == old(analysisError)
    {
      var saved := Storage.ReadList(store.items, PropertiesKey);
      if saved.Loaded? {
        submittedProperties := saved.list;
      }
    }

    /** The start of `analyzeImage`, before the request is sent. */
    method StartAnalysis()
      modifies this
      ensures isAnalyzing && analysisError == "" && analysisResult == None
      ensures uploadedImage == old(uploadedImage) && submittedProperties == old(submittedProperties)
    {
      isAnalyzing := true;
      analysisError := "";
      analysisResult := None;
    }

    /**
     * The reader's `onloadend`: the image is shown and stored under
     * `propertyImage` before the analysis starts. `imageData` is `None`
     * when the read failed (`reader.result` is `null`); the store then
     * holds the text "null" and the analysis still starts.
     */
    method OnImageRead(imageData: Option<string>)
      modifies this, store
      ensures uploadedImage == imageData
      ensures store.items == old(store.items)[ImageKey := ImageText(imageData)]
      ensures imageData.None? ==> store.items[ImageKey] == "null"
      ensures isAnalyzing && analysisError == "" && analysisResult == None
      ensures submittedProperties == old(submittedProperties)
    {
      uploadedImage := imageData;
      store.SetItem(ImageKey, ImageText(imageData));
      StartAnalysis();
    }

    /**
     * The rest of `analyzeImage`, once the request has ended: a delivered
     * body is kept and stored under `analysisResult`; any failure leaves
     * both alone and shows its message; analysing is over either way.
     */
    method FinishAnalysis(outcome: FetchOutcome)
      modifies this, store
      ensures !isAnalyzing
      ensures outcome.Delivered? ==> analysisResult == Some(outcome.payload)
      ensures outcome.Delivered? ==> store.items == old(store.items)[AnalysisKey := outcome.payload]
      ensures outcome.Delivered? ==> analysisError == old(analysisError)
      ensures !outcome.Delivered? ==> analysisResult == old(analysisResult)
      ensures !outcome.Delivered? ==> store.items == old(store.items)
      ensures !outcome.Delivered? ==> analysisError == ErrorText(outcome) && analysisError != ""
      ensures uploadedImage == old(uploadedImage) && submittedProperties == old(submittedProperties)
    {
      match outcome {
        case Delivered(payload) =>
          analysisResult := Some(payload);
          store.SetItem(AnalysisKey, payload);
        case _ =>
          analysisError := ErrorText(outcome);
      }
      isAnalyzing := false;
    }

    /**
     * `handleImageUpload` from the file read to the end of the analysis,
     * when no other handler runs in between. "Next" is then offered exactly
     * when the read gave a non-empty image and the request either failed or
     * delivered a truthy body.
     */
    method HandleImageUpload(imageData: Option<string>, outcome: FetchOutcome)
      modifies this, store
      ensures uploadedImage == imageData && !isAnalyzing
      ensures analysisResult == (if outcome.Delivered? then Some(outcome.payload) else None)
      ensures analysisError == ErrorText(outcome)
      ensures store.items ==
        if outcome.Delivered? then old(store.items)[ImageKey := ImageText(imageData)][AnalysisKey := outcome.payload]
        else old(store.items)[ImageKey := ImageText(imageData)]
      ensures submittedProperties == old(submittedProperties)
      ensures HasResult() <==> outcome.Delivered? && Truthy(outcome.payload)
      ensures NextOffered() <==>
        imageData.Some? && imageData.value != "" && (!outcome.Delivered? || Truthy(outcome.payload))
    {
      OnImageRead(imageData);
      FinishAnalysis(outcome);
    }

    /** `handleClearImage`. */
    method ClearImage()
      modifies this, store
      ensures uploadedImage == None && analysisResult == None && analysisError == ""
      ensures store.items == old(store.items) - {ImageKey, AnalysisKey}
      ensures isAnalyzing == old(isAnalyzing) && submittedProperties == old(submittedProperties)
      ensures !NextOffered()
    {
      uploadedImage := None;
      analysisResult := None;
      analysisError := "";
      store.RemoveItem(ImageKey);
      store.RemoveItem(AnalysisKey);
    }

    /** `analysisResult` is truthy: the analysis panel shows and "Next" hands it on. */
    predicate HasResult()
      reads this
    {
      analysisResult.Some? && Truthy(analysisResult.value)
    }

    /**
     * The "Next" button is rendered only beside a shown image (an empty or
     * missing image shows the upload widget instead), and only once there
     * is a truthy result or an error.
     */
    predicate NextOffered()
      reads this
    {
      uploadedImage.Some? && uploadedImage.value != "" &&
      (HasResult() || analysisError != "")
    }

    /**
     * The "Next" handler: the image is always written, the analysis only
     * when it is truthy; nothing on the page changes.
     */
    method Next()
      requires NextOffered()
      modifies store
      ensures store.items ==
        if HasResult() then old(store.items)[ImageKey := ImageText(uploadedImage)][AnalysisKey := analysisResult.value]
        else old(store.items)[ImageKey := ImageText(uploadedImage)]
      ensures store.items[ImageKey] == uploadedImage.value
    {
      store.SetItem(ImageKey, ImageText(uploadedImage));
      if HasResult() {
        store.SetItem(AnalysisKey, analysisResult.value);
      }
    }
  }
}

=== FILE: Complaints.dfy ===
/**
 * The customer complaints page: the stored complaint list, and a form that
 * files a new complaint with a fixed initial status and progress.
 */
module Complaints {

  import opened Wrappers
  import opened Text
  import Json
  import Storage

  const ComplaintsKey := "customerComplaints"

  /** The three fields of the complaint form. */
  datatype ComplaintForm = ComplaintForm(title: string, description: string, category: string)

  const EmptyForm := ComplaintForm("", "", "general")

  /** `handleFormChange`: the field named `name` takes `value`; other names touch no field that is read. */
  function WithField(form: ComplaintForm, name: string, value: string): (r: ComplaintForm)
    ensures name == "title" ==> r == form.(title := value)
    ensures name == "description" ==> r == form.(description := value)
    ensures name == "category" ==> r == form.(category := value)
    ensures name !in {"title", "description", "category"} ==> r == form
  {
    match name
    case "title" => form.(title := value)
    case "description" => form.(description := value)
    case "category" => form.(category := value)
    case _ => form
  }

  /**
   * The new complaint: its id from the clock reading `now` (milliseconds),
   * both dates from today's date text, status "open" and progress 0.
   */
  function NewComplaint(form: ComplaintForm, now: nat, today: string): Json.Object {
    FormMembers(form, now) + InitialMembers(today)
  }

  /** The members taken from the clock and the form. */
  function FormMembers(form: ComplaintForm, now: nat): Json.Object {
    [
      ("id", Json.Str("CMP-" + NatToString(now))),
      ("title", Json.Str(form.title)),
      ("description", Json.Str(form.description)),
      ("category", Json.Str(form.category))
    ]
  }

  /** The form's members have exactly the form's four keys. */
  lemma FormMembersKeys(form: ComplaintForm, now: nat)
    ensures forall key :: Json.HasKey(FormMembers(form, now), key) <==>
      key in {"id", "title", "description", "category"}
  {
    var a := FormMembers(form, now);
    assert a[0].0 == "id" && a[1].0 == "title" && a[2].0 == "description" && a[3].0 == "category";
  }

  /** The members every new complaint starts with. */
  function InitialMembers(today: string): Json.Object {
    [
      ("dateSubmitted", Json.Str(today)),
      ("lastUpdated", Json.Str(today)),
      ("status", Json.Str("open")),
      ("progress", Json.Num(0))
    ]
  }

  /** The new complaint carries the clock-derived id and the form's three fields. */
  lemma NewComplaintFromForm(form: ComplaintForm, now: nat, today: string)
    ensures var c := NewComplaint(form, now, today);
      && Json.Get(c, "id") == Some(Json.Str("CMP-" + NatToString(now)))
      && Json.Get(c, "title") == Some(Json.Str(form.title))
      && Json.Get(c, "description") == Some(Json.Str(form.description))
      && Json.Get(c, "category") == Some(Json.Str(form.category))
  {
    var a, b := FormMembers(form, now), InitialMembers(today);
    Json.GetFirst(a, 0); Json.GetFirst(a, 1); Json.GetFirst(a, 2); Json.GetFirst(a, 3);
    Json.GetAppend(a, b, "id");
    Json.GetAppend(a, b, "title");
    Json.GetAppend(a, b, "description");
    Json.GetAppend(a, b, "category");
  }

  /** Both dates are today's, the status is "open" and the progress 0. */
  lemma NewComplaintInitialState(form: ComplaintForm, now: nat, today: string)
    ensures var c := NewComplaint(form, now, today);
      && Json.Get(c, "dateSubmitted") == Some(Json.Str(today))
      && Json.Get(c, "lastUpdated") == Some(Json.Str(today))
      && Json.Get(c, "status") == Some(Json.Str("open"))
      && Json.Get(c, "progress") == Some(Json.Num(0))
  {
    var a, b := FormMembers(form, now), InitialMembers(today);
    FormMembersKeys(form, now);
    Json.GetFirst(b, 0); Json.GetFirst(b, 1); Json.GetFirst(b, 2); Json.GetFirst(b, 3);
    Json.GetAppend(a, b, "dateSubmitted");
    Json.GetAppend(a, b, "lastUpdated");
    Json.GetAppend(a, b, "status");
    Json.GetAppend(a, b, "progress");
  }

  /** `getStatusColor`. */
  function StatusColour(status: string): string {
    match status
    case "open" => "bg-red-100 text-red-700"
    case "in-progress" => "bg-yellow-100 text-yellow-700"
    case "resolved" => "bg-green-100 text-green-700"
    case "closed" => "bg-gray-100 text-gray-700"
    case _ => "bg-gray-100 text-gray-700"
  }

  /** The four known statuses get four different colours; every other status looks closed. */
  lemma StatusColourSpec(status: string)
    ensures StatusColour(status) == StatusColour("closed") <==>
      status !in {"open", "in-progress", "resolved"}
    ensures StatusColour("open") != StatusColour("in-progress")
    ensures StatusColour("open") != StatusColour("resolved")
    ensures StatusColour("in-progress") != StatusColour("resolved")
  {
  }

  class ComplaintsPage {
    const store: Storage.LocalStorage
    var complaints: seq<Json.Object>
    var isLoading: bool
    var showForm: bool
    var formData: ComplaintForm

    constructor (store: Storage.LocalStorage)
      ensures this.store == store
      ensures complaints == [] && isLoading && !showForm && formData == EmptyForm
    {
      this.store := store;
      complaints := [];
      isLoading := true;
      showForm := false;
      formData := EmptyForm;
    }

    /** The list on the page is the list in the store (an absent list reads as empty). */
    predicate Synced()
      reads this, store
    {
      var read := Storage.ReadList(store.items, ComplaintsKey);
      !read.Unparsable? && Storage.ListOrEmpty(read) == complaints
    }

    /** The mount effect; a stored list that cannot be parsed leaves the page loading. */
    method Load()
      modifies this
      ensures var read := Storage.ReadList(store.items, ComplaintsKey);
        && (read.Loaded? ==> complaints == read.list)
        && (!read.Loaded? ==> complaints == old(complaints))
        && isLoading == (read.Unparsable? && old(isLoading))
      ensures old(complaints) == [] && !Storage.ReadList(store.items, ComplaintsKey).Unparsable? ==> Synced()
      ensures showForm == old(showForm) && formData == old(formData)
    {
      var read := Storage.ReadList(store.items, ComplaintsKey);
      if read.Unparsable? {
        return;
      }
      if read.Loaded? {
        complaints := read.list;
      }
      isLoading := false;
    }

    method OpenForm()
      modifies this
      ensures showForm
      ensures complaints == old(complaints) && formData == old(formData) && isLoading == old(isLoading)
    {
      showForm := true;
    }

    /** `handleFormChange`. */
    method ChangeField(name: string, value: string)
      modifies this
      ensures formData == WithField(old(formData), name, value)
      ensures complaints == old(complaints) && showForm == old(showForm) && isLoading == old(isLoading)
    {
      formData := WithField(formData, name, value);
    }

    /**
     * `handleSubmitComplaint`: an empty title or description changes
     * nothing; otherwise one new complaint is appended and stored, and the
     * form is reset and closed.
     */
    method Submit(now: nat, today: string) returns (filed: bool)
      modifies this, store
      ensures filed <==> old(formData).title != "" && old(formData).description != ""
      ensures !filed ==> complaints == old(complaints) && store.items == old(store.items)
      ensures !filed ==> formData == old(formData) && showForm == old(showForm)
      ensures filed ==> complaints == old(complaints) + [NewComplaint(old(formData), now, today)]
      ensures filed ==> store.items == old(store.items)[ComplaintsKey := Json.Stringify(complaints)]
      ensures filed ==> Synced()
      ensures filed ==> formData == EmptyForm && !showForm
      ensures isLoading == old(isLoading)
    {
      if formData.title == "" || formData.description == "" {
        return false;
      }
      var updated := complaints + [NewComplaint(formData, now, today)];
      complaints := updated;
      store.SetItem(ComplaintsKey, Json.Stringify(updated));
      Storage.ReadWritten(old(store.items), ComplaintsKey, updated);
      showForm := false;
      formData := EmptyForm;
      filed := true;
    }
  }
}

=== FILE: Detections.dfy ===
/**
 * Turning the defect model's raw output rows into crack detections: the
 * score is a percentage, rows at or below 4% are dropped, and each kept
 * detection gets a severity from its confidence. Without a loaded model a
 * fixed mock detection is returned instead.
 */
module Detections {

  import opened Wrappers

  datatype Box = Box(x1: real, y1: real, x2: real, y2: real)

  /** One row of the model's first output: four box coordinates, then a score in percent. */
  datatype RawRow = RawRow(x1: real, y1: real, x2: real, y2: real, score: real)

  datatype Severity = SevereHigh | SevereMedium | SevereLow

  function SeverityName(s: Severity): string {
    match s
    case SevereHigh => "high"
    case SevereMedium => "medium"
    case SevereLow => "low"
  }

  datatype Detection = Detection(defectType: string, confidence: real, bbox: Box, severity: Severity)

  /** The minimum confidence, exclusive. */
  const Threshold: real := 0.04

  function Confidence(row: RawRow): real {
    row.score / 100.0
  }

  predicate Keep(row: RawRow) {
    Confidence(row) > Threshold
  }

  /** A row survives exactly when its raw score is above 4 (percent). */
  lemma KeepIffScore(row: RawRow)
    ensures Keep(row) <==> row.score > 4.0
  {
  }

  function SeverityOf(confidence: real): (s: Severity)
    ensures s == SevereHigh <==> confidence > 0.8
    ensures s == SevereMedium <==> 0.6 < confidence <= 0.8
    ensures s == SevereLow <==> confidence <= 0.6
  {
    if confidence > 0.8 then SevereHigh
    else if confidence > 0.6 then SevereMedium
    else SevereLow
  }

  function ToDetection(row: RawRow): Detection {
    Detection("crack", Confidence(row), Box(row.x1, row.y1, row.x2, row.y2), SeverityOf(Confidence(row)))
  }

  /** The detections kept from `rows`, in row order (defined from the last row, the way the loop grows it). */
  function KeptDetections(rows: seq<RawRow>): seq<Detection>
    decreases |rows|
  {
    if rows == [] then []
    else
      var last := rows[|rows| - 1];
      KeptDetections(rows[..|rows| - 1]) + (if Keep(last) then [ToDetection(last)] else [])
  }

  /** The loop over the model's output rows. */
  method PostProcess(rows: seq<RawRow>) returns (detections: seq<Detection>)
    ensures detections == KeptDetections(rows)
  {
    detections := [];
    var i := 0;
    while i < |rows|
      invariant 0 <= i <= |rows|
      invariant detections == KeptDetections(rows[..i])
    {
      var confidence := rows[i].score / 100.0;
      if confidence > 0.04 {
        var severity := if confidence > 0.8 then SevereHigh else if confidence > 0.6 then SevereMedium else SevereLow;
        detections := detections + [Detection("crack", confidence, Box(rows[i].x1, rows[i].y1, rows[i].x2, rows[i].y2), severity)];
      }
      assert rows[..i + 1][..i] == rows[..i];
      i := i + 1;
    }
    assert rows[..i] == rows;
  }

  /**
   * What survives: never more detections than rows; every detection is a
   * crack above the threshold with the severity of its confidence; and a
   * detection is kept exactly when some row above the threshold produced it.
   */
  lemma {:induction false} KeptDetectionsSpec(rows: seq<RawRow>)
    ensures |KeptDetections(rows)| <= |rows|
    ensures forall d :: d in KeptDetections(rows) ==>
      d.defectType == "crack" && d.confidence > Threshold && d.severity == SeverityOf(d.confidence)
    ensures forall d :: d in KeptDetections(rows) <==>
      exists i :: 0 <= i < |rows| && Keep(rows[i]) && d == ToDetection(rows[i])
    decreases |rows|
  {
    if rows != [] {
      var init := rows[..|rows| - 1];
      var last := rows[|rows| - 1];
      KeptDetectionsSpec(init);
      forall d
        ensures d in KeptDetections(rows) <==> exists i :: 0 <= i < |rows| && Keep(rows[i]) && d == ToDetection(rows[i])
      {
        if d in KeptDetections(init) {
          var i :| 0 <= i < |init| && Keep(init[i]) && d == ToDetection(init[i]);
          assert rows[i] == init[i];
        }
        if exists i :: 0 <= i < |rows| && Keep(rows[i]) && d == ToDetection(rows[i]) {
          var i :| 0 <= i < |rows| && Keep(rows[i]) && d == ToDetection(rows[i]);
          if i < |init| {
            assert init[i] == rows[i];
          }
        }
      }
    }
  }

  /** Detections keep the order of their rows: kept rows after a prefix come after its detections. */
  lemma {:induction false} KeptDetectionsAppend(a: seq<RawRow>, b: seq<RawRow>)
    ensures KeptDetections(a + b) == KeptDetections(a) + KeptDetections(b)
    decreases |b|
  {
    if b == [] {
      assert a + b == a;
    } else {
      var init := b[..|b| - 1];
      assert (a + b)[..|a + b| - 1] == a + init;
      assert (a + b)[|a + b| - 1] == b[|b| - 1];
      KeptDetectionsAppend(a, init);
    }
  }

  /** The detection returned when no model is loaded. */
  const MockDetection := Detection("crack", 0.85, Box(100.0, 150.0, 300.0, 250.0), SevereMedium)

  /** The mock's fixed severity is not the one its confidence would get from the post-processing rule. */
  lemma MockSeverityDiffers()
    ensures SeverityOf(MockDetection.confidence) == SevereHigh != MockDetection.severity
  {
  }

  /**
   * What inference produced: no model loaded, an unreadable image, an
   * exception raised by preprocessing, by the model run or by reading a row
   * of its output (with the exception's text), or the rows of the first
   * output.
   */
  datatype Inference = NoSession | Unreadable | Raised(message: string) | Ran(rows: seq<RawRow>)

  /** `run_yolo_inference` with the model call replaced by its outcome. */
  method RunInference(inference: Inference) returns (r: Result<seq<Detection>, string>)
    ensures inference.NoSession? ==> r == Success([MockDetection])
    ensures inference.Unreadable? ==> r == Failure("Could not load image")
    ensures inference.Raised? ==> r == Failure(inference.message)
    ensures inference.Ran? ==> r == Success(KeptDetections(inference.rows))
  {
    match inference
    case NoSession =>
      r := Success([MockDetection]);
    case Unreadable =>
      r := Failure("Could not load image");
    case Raised(message) =>
      r := Failure(message);
    case Ran(rows) =>
      var detections := PostProcess(rows);
      r := Success(detections);
  }
}

=== FILE: Json.dfy ===
/**
 * The JSON used by the pages' local storage: arrays of flat objects whose
 * member values are strings, natural numbers or null. `Stringify` stands
 * for `JSON.stringify` on such arrays and `Parse` for `JSON.parse`; what
 * the model relies on is that `Parse` undoes `Stringify`.
 */
module Json {

  import opened Wrappers
  import opened Text

  datatype Value = Str(s: string) | Num(n: nat) | Null

  type Member = (string, Value)

  /** A JavaScript object literal: its members in insertion order. */
  type Object = seq<Member>

  predicate HasKey(o: Object, key: string) {
    exists i :: 0 <= i < |o| && o[i].0 == key
  }

  /** `o[key]`: the value of the first member named `key`. */
  function Get(o: Object, key: string): (r: Option<Value>)
    ensures r.Some? <==> HasKey(o, key)
  {
    if o == [] then None
    else if o[0].0 == key then Some(o[0].1)
    else
      HasKeyCons(o, key);
      Get(o[1..], key)
  }

  lemma HasKeyCons(o: Object, key: string)
    requires o != []
    ensures HasKey(o, key) <==> o[0].0 == key || HasKey(o[1..], key)
  {
    if HasKey(o, key) && o[0].0 != key {
      var i :| 0 <= i < |o| && o[i].0 == key;
      assert o[1..][i - 1].0 == key;
    }
    if HasKey(o[1..], key) {
      var i :| 0 <= i < |o[1..]| && o[1..][i].0 == key;
      assert o[i + 1].0 == key;
    }
  }

  /** The first member with a given key is the one `Get` finds. */
  lemma {:induction false} GetFirst(o: Object, i: nat)
    requires i < |o|
    requires forall j :: 0 <= j < i ==> o[j].0 != o[i].0
    ensures Get(o, o[i].0) == Some(o[i].1)
  {
    if i > 0 {
      GetFirst(o[1..], i - 1);
    }
  }

  /** A lookup in `a + b` reads `a` when `a` has the key, and `b` otherwise. */
  lemma {:induction false} GetAppend(a: Object, b: Object, key: string)
    ensures Get(a + b, key) == if HasKey(a, key) then Get(a, key) else Get(b, key)
  {
    if a == [] {
      assert a + b == b;
    } else {
      assert (a + b)[0] == a[0] && (a + b)[1..] == a[1..] + b;
      HasKeyCons(a, key);
      GetAppend(a[1..], b, key);
    }
  }

  /**
   * `{ ...o, [key]: v }`: an existing member keeps its place and takes the
   * new value; a new key is appended at the end.
   */
  function Set(o: Object, key: string, v: Value): (r: Object)
    ensures Get(r, key) == Some(v)
    ensures forall k :: k != key ==> Get(r, k) == Get(o, k)
    ensures HasKey(o, key) ==> |r| == |o|
    ensures !HasKey(o, key) ==> r == o + [(key, v)]
  {
    if o == [] then [(key, v)]
    else if o[0].0 == key then [(key, v)] + o[1..]
    else
      var tail := Set(o[1..], key, v);
      var r := [o[0]] + tail;
      assert r[0] == o[0] && r[1..] == tail;
      HasKeyCons(o, key);
      HasKeyCons(r, key);
      r
  }

  /* ---- Printing ---- */

  /** A hexadecimal digit, as `\uXXXX` escapes use them. */
  predicate IsHexDigit(c: char) {
    ('0' <= c <= '9') || ('a' <= c <= 'f') || ('A' <= c <= 'F')
  }

  function HexValue(c: char): (v: nat)
    requires IsHexDigit(c)
    ensures v < 16
  {
    if '0' <= c <= '9' then c as int - '0' as int
    else if 'a' <= c <= 'f' then c as int - 'a' as int + 10
    else c as int - 'A' as int + 10
  }

  /** The lower-case hexadecimal digit `JSON.stringify` writes. */
  function HexChar(n: nat): (c: char)
    requires n < 16
    ensures IsHexDigit(c) && HexValue(c) == n
  {
    if n < 10 then ('0' as int + n) as char else ('a' as int + n - 10) as char
  }

  /**
   * How `JSON.stringify` writes one character of a string: `"` and `\`
   * and the control characters are escaped, the short forms where JSON
   * has them and `\u00XX` otherwise; every other character is written
   * as it is.
   */
  function EscapeChar(c: char): (r: string)
    ensures |r| > 0
  {
    if c == '"' then "\\\""
    else if c == '\\' then "\\\\"
    else if c == '\U{8}' then "\\b"
    else if c == '\U{C}' then "\\f"
    else if c == '\n' then "\\n"
    else if c == '\r' then "\\r"
    else if c == '\t' then "\\t"
    else if c < ' ' then "\\u00" + [HexChar(c as int / 16), HexChar(c as int % 16)]
    else [c]
  }

  /** The body of a string literal as `JSON.stringify` writes it. */
  function Escape(s: string): string {
    if s == [] then "" else EscapeChar(s[0]) + Escape(s[1..])
  }

  function Quote(s: string): string {
    "\"" + Escape(s) + "\""
  }

  function ValueText(v: Value): string {
    match v
    case Str(s) => Quote(s)
    case Num(n) => NatToString(n)
    case Null => "null"
  }

  function MemberText(m: Member): string {
    Quote(m.0) + ":" + ValueText(m.1)
  }

  function MembersText(o: Object): string
    decreases |o|
  {
    if o == [] then ""
    else if |o| == 1 then MemberText(o[0])
    else MemberText(o[0]) + "," + MembersText(o[1..])
  }

  function ObjectText(o: Object): string {
    "{" + MembersText(o) + "}"
  }

  function ElementsText(xs: seq<Object>): string
    decreases |xs|
  {
    if xs == [] then ""
    else if |xs| == 1 then ObjectText(xs[0])
    else ObjectText(xs[0]) + "," + ElementsText(xs[1..])
  }

  /** `JSON.stringify(xs)`. */
  function Stringify(xs: seq<Object>): (r: string)
    ensures |r| >= 2 && r[0] == '['
  {
    "[" + ElementsText(xs) + "]"
  }

  /* ---- Parsing: each parser returns what it read and the rest of the input ---- */

  /**
   * Reads what follows a backslash: one of JSON's escapes. A `\uXXXX`
   * naming half of a surrogate pair is refused.
   */
  function ParseEscape(s: string): (r: Option<(char, string)>)
    ensures r.Some? ==> |r.value.1| < |s|
  {
    if s == [] then None
    else if s[0] == '"' then Some(('"', s[1..]))
    else if s[0] == '\\' then Some(('\\', s[1..]))
    else if s[0] == '/' then Some(('/', s[1..]))
    else if s[0] == 'b' then Some(('\U{8}', s[1..]))
    else if s[0] == 'f' then Some(('\U{C}', s[1..]))
    else if s[0] == 'n' then Some(('\n', s[1..]))
    else if s[0] == 'r' then Some(('\r', s[1..]))
    else if s[0] == 't' then Some(('\t', s[1..]))
    else if s[0] == 'u' && |s| >= 5 && IsHexDigit(s[1]) && IsHexDigit(s[2]) && IsHexDigit(s[3]) && IsHexDigit(s[4]) then
      var v := 4096 * HexValue(s[1]) + 256 * HexValue(s[2]) + 16 * HexValue(s[3]) + HexValue(s[4]);
      if 0xD800 <= v < 0xE000 then None else Some((v as char, s[5..]))
    else None
  }

  /**
   * Reads a string body up to and including its closing quote. As in
   * `JSON.parse`, an unescaped control character is an error.
   */
  function ParseStringBody(s: string): (r: Option<(string, string)>)
    ensures r.Some? ==> |r.value.1| < |s|
    decreases |s|
  {
    if s == [] then None
    else if s[0] == '"' then Some(("", s[1..]))
    else if s[0] == '\\' then
      match ParseEscape(s[1..])
      case None => None
      case Some((c, after)) =>
        match ParseStringBody(after)
        case None => None
        case Some((t, rest)) => Some(([c] + t, rest))
    else if s[0] < ' ' then None
    else
      match ParseStringBody(s[1..])
      case None => None
      case Some((t, rest)) => Some(([s[0]] + t, rest))
  }

  function ParseString(s: string): (r: Option<(string, string)>)
    ensures r.Some? ==> |r.value.1| < |s|
  {
    if s != [] && s[0] == '"' then ParseStringBody(s[1..]) else None
  }

  /** The number of leading decimal digits. */
  function DigitRun(s: string): (k: nat)
    ensures k <= |s|
    ensures forall i :: 0 <= i < k ==> IsDigit(s[i])
    ensures k < |s| ==> !IsDigit(s[k])
  {
    if s != [] && IsDigit(s[0]) then
      var k := 1 + DigitRun(s[1..]);
      assert forall i :: 1 <= i < k ==> s[i] == s[1..][i - 1];
      k
    else 0
  }

  function ParseNumber(s: string): (r: Option<(nat, string)>)
    ensures r.Some? ==> |r.value.1| < |s|
  {
    var k := DigitRun(s);
    if k == 0 then None else Some((DigitsValue(s[..k]), s[k..]))
  }

  function ParseValue(s: string): (r: Option<(Value, string)>)
    ensures r.Some? ==> |r.value.1| < |s|
  {
    if s == [] then None
    else if s[0] == '"' then
      match ParseString(s)
      case None => None
      case Some((t, rest)) => Some((Str(t), rest))
    else if StartsWith(s, "null") then Some((Null, s[4..]))
    else
      match ParseNumber(s)
      case None => None
      case Some((n, rest)) => Some((Num(n), rest))
  }

  function ParseMember(s: string): (r: Option<(Member, string)>)
    ensures r.Some? ==> |r.value.1| < |s|
  {
    match ParseString(s)
    case None => None
    case Some((key, rest)) =>
      if rest != [] && rest[0] == ':' then
        match ParseValue(rest[1..])
        case None => None
        case Some((v, rest')) => Some(((key, v), rest'))
      else None
  }

  /** Reads `member (, member)* }`. */
  function ParseMembers(s: string): (r: Option<(Object, string)>)
    ensures r.Some? ==> |r.value.1| < |s|
    decreases |s|
  {
    match ParseMember(s)
    case None => None
    case Some((m, rest)) =>
      if rest != [] && rest[0] == '}' then Some(([m], rest[1..]))
      else if rest != [] && rest[0] == ',' then
        match ParseMembers(rest[1..])
        case None => None
        case Some((ms, rest')) => Some(([m] + ms, rest'))
      else None
  }

  function ParseObject(s: string): (r: Option<(Object, string)>)
    ensures r.Some? ==> |r.value.1| < |s|
  {
    if s == [] || s[0] != '{' then None
    else if |s| >= 2 && s[1] == '}' then Some(([], s[2..]))
    else ParseMembers(s[1..])
  }

  /** Reads `object (, object)* ]`. */
  function ParseElements(s: string): (r: Option<(seq<Object>, string)>)
    ensures r.Some? ==> |r.value.1| < |s|
    decreases |s|
  {
    match ParseObject(s)
    case None => None
    case Some((o, rest)) =>
      if rest != [] && rest[0] == ']' then Some(([o], rest[1..]))
      else if rest != [] && rest[0] == ',' then
        match ParseElements(rest[1..])
        case None => None
        case Some((os, rest')) => Some(([o] + os, rest'))
      else None
  }

  /** `JSON.parse(s)` for an array of flat objects; `None` where it would throw. */
  function Parse(s: string): Option<seq<Object>> {
    if s == [] || s[0] != '[' then None
    else
      var parsed: Option<(seq<Object>, string)> :=
        if |s| >= 2 && s[1] == ']' then Some(([], s[2..])) else ParseElements(s[1..]);
      match parsed
      case Some((xs, rest)) => if rest == "" then Some(xs) else None
      case None => None
  }

  /* ---- Round trip ---- */

  lemma {:induction false} ParseStringBodyEscape(s: string, rest: string)
    ensures ParseStringBody(Escape(s) + "\"" + rest) == Some((s, rest))
  {
    if s == [] {
      assert Escape(s) + "\"" + rest == "\"" + rest;
      DropOne("\"", rest);
    } else {
      var tail := Escape(s[1..]) + "\"" + rest;
      Wrap(EscapeChar(s[0]), Escape(s[1..]), "\"", rest);
      assert Escape(s) + "\"" + rest == EscapeChar(s[0]) + tail;
      ParseStringBodyEscape(s[1..], rest);
      ParseEscapeChar(s[0], tail, s[1..], rest);
      assert [s[0]] + s[1..] == s;
    }
  }

  /** One written character reads back as itself, whatever follows. */
  lemma ParseEscapeChar(c: char, after: string, t: string, rest: string)
    requires ParseStringBody(after) == Some((t, rest))
    ensures ParseStringBody(EscapeChar(c) + after) == Some(([c] + t, rest))
  {
    var e := EscapeChar(c);
    var s := e + after;
    if e == [c] {
      assert c != '"' && c != '\\' && !(c < ' ');
      assert s[0] == c && s[1..] == after;
    } else {
      EscapedForm(c);
      assert s[0] == '\\';
      assert s[1..] == e[1..] + after;
      ParseEscapeOf(c, after);
      ParseEscapedStep(s, c, after, t, rest);
    }
  }

  lemma EscapedForm(c: char)
    requires EscapeChar(c) != [c]
    ensures EscapeChar(c)[0] == '\\'
  {
  }

  lemma ParseEscapedStep(s: string, c: char, after: string, t: string, rest: string)
    requires s != [] && s[0] == '\\'
    requires ParseEscape(s[1..]) == Some((c, after))
    requires ParseStringBody(after) == Some((t, rest))
    ensures ParseStringBody(s) == Some(([c] + t, rest))
  {
  }

  /** An escape written for `c` reads back as `c`. */
  lemma ParseEscapeOf(c: char, after: string)
    requires EscapeChar(c) != [c]
    ensures ParseEscape(EscapeChar(c)[1..] + after) == Some((c, after))
  {
    var e := EscapeChar(c);
    var s := e[1..] + after;
    if c < ' ' && c != '\U{8}' && c != '\U{C}' && c != '\n' && c != '\r' && c != '\t' {
      var hi, lo := c as int / 16, c as int % 16;
      assert e == "\\u00" + [HexChar(hi), HexChar(lo)];
      assert s[..5] == ['u', '0', '0', HexChar(hi), HexChar(lo)];
      assert s[5..] == after;
      assert 4096 * HexValue(s[1]) + 256 * HexValue(s[2]) + 16 * HexValue(s[3]) + HexValue(s[4]) == c as int;
    } else {
      assert |e| == 2 && s[1..] == after;
    }
  }

  lemma ParseQuote(s: string, rest: string)
    ensures ParseString(Quote(s) + rest) == Some((s, rest))
  {
    assert (Quote(s) + rest)[1..] == Escape(s) + "\"" + rest;
    ParseStringBodyEscape(s, rest);
  }

  /**
   * A line break typed into a text area is written as `\n` and reads back
   * as a line break; the same character written raw is refused.
   */
  lemma LineBreakExample()
    ensures Quote("a\nb") == "\"a\\nb\""
    ensures ParseString("\"a\\nb\"") == Some(("a\nb", ""))
    ensures ParseString("\"a\nb\"") == None
  {
    ParseQuote("a\nb", "");
    assert Quote("a\nb") + "" == Quote("a\nb");
  }

  lemma ParseNatToString(n: nat, rest: string)
    requires rest == [] || !IsDigit(rest[0])
    ensures ParseNumber(NatToString(n) + rest) == Some((n, rest))
  {
    var d := NatToString(n);
    var s := d + rest;
    DigitRunOf(d, rest);
    assert s[..|d|] == d && s[|d|..] == rest;
    DigitsValueOfNatToString(n);
  }

  lemma {:induction false} DigitRunOf(d: string, rest: string)
    requires forall i :: 0 <= i < |d| ==> IsDigit(d[i])
    requires rest == [] || !IsDigit(rest[0])
    ensures DigitRun(d + rest) == |d|
  {
    if d != [] {
      assert (d + rest)[1..] == d[1..] + rest;
      DigitRunOf(d[1..], rest);
    }
  }

  /** A printed value reads back, provided what follows cannot extend a number. */
  lemma ParseValueText(v: Value, rest: string)
    requires rest != [] && !IsDigit(rest[0])
    ensures ParseValue(ValueText(v) + rest) == Some((v, rest))
  {
    match v
    case Str(t) =>
      ParseQuote(t, rest);
    case Num(n) =>
      ParseNatToString(n, rest);
      var s := NatToString(n) + rest;
      assert s[0] == NatToString(n)[0];
      assert !StartsWith(s, "null");
    case Null =>
      assert (ValueText(v) + rest)[4..] == rest;
  }

  lemma ParseMemberText(m: Member, rest: string)
    requires rest != [] && !IsDigit(rest[0])
    ensures ParseMember(MemberText(m) + rest) == Some((m, rest))
  {
    var s := MemberText(m) + rest;
    var after := ":" + (ValueText(m.1) + rest);
    MemberTextSplit(m, rest);
    ParseQuote(m.0, after);
    ParseValueText(m.1, rest);
    ParseMemberStep(s, m.0, after, m.1, rest);
  }

  lemma MemberTextSplit(m: Member, rest: string)
    ensures MemberText(m) + rest == Quote(m.0) + (":" + (ValueText(m.1) + rest))
    ensures (":" + (ValueText(m.1) + rest))[1..] == ValueText(m.1) + rest
  {
  }

  lemma ParseMemberStep(s: string, key: string, after: string, v: Value, rest: string)
    requires ParseString(s) == Some((key, after))
    requires after != [] && after[0] == ':'
    requires ParseValue(after[1..]) == Some((v, rest))
    ensures ParseMember(s) == Some(((key, v), rest))
  {
  }

  lemma {:induction false} ParseMembersText(o: Object, rest: string)
    requires o != []
    ensures ParseMembers(MembersText(o) + "}" + rest) == Some((o, rest))
    decreases |o|
  {
    var s := MembersText(o) + "}" + rest;
    if |o| == 1 {
      var after := "}" + rest;
      MembersTextLast(o, rest);
      ParseMemberText(o[0], after);
      ParseMembersLast(s, o[0], after);
    } else {
      var tail := MembersText(o[1..]) + "}" + rest;
      var after := "," + tail;
      MembersTextCons(o, rest);
      ParseMemberText(o[0], after);
      ParseMembersText(o[1..], rest);
      ParseMembersNext(s, o[0], after, o[1..], rest);
    }
  }

  lemma MembersTextLast(o: Object, rest: string)
    requires |o| == 1
    ensures MembersText(o) + "}" + rest == MemberText(o[0]) + ("}" + rest)
    ensures ("}" + rest)[1..] == rest && [o[0]] == o
  {
    assert MembersText(o) == MemberText(o[0]);
    Assoc(MemberText(o[0]), "}", rest);
    DropOne("}", rest);
  }

  lemma MembersTextCons(o: Object, rest: string)
    requires |o| > 1
    ensures MembersText(o) + "}" + rest == MemberText(o[0]) + ("," + (MembersText(o[1..]) + "}" + rest))
    ensures ("," + (MembersText(o[1..]) + "}" + rest))[1..] == MembersText(o[1..]) + "}" + rest
    ensures [o[0]] + o[1..] == o
  {
    assert MembersText(o) == MemberText(o[0]) + "," + MembersText(o[1..]);
    Regroup(MemberText(o[0]), ",", MembersText(o[1..]), "}", rest);
    DropOne(",", MembersText(o[1..]) + "}" + rest);
  }

  /** Concatenation regrouped to the right. */
  lemma Regroup(x: string, sep: string, y: string, close: string, rest: string)
    ensures x + sep + y + close + rest == x + (sep + (y + close + rest))
  {
  }

  lemma Assoc(a: string, b: string, c: string)
    ensures a + b + c == a + (b + c)
  {
  }

  lemma Wrap(a: string, x: string, b: string, rest: string)
    ensures a + x + b + rest == a + (x + b + rest)
  {
  }

  lemma DropOne(b: string, c: string)
    requires |b| == 1
    ensures (b + c)[1..] == c
  {
  }

  lemma ParseMembersLast(s: string, m: Member, after: string)
    requires ParseMember(s) == Some((m, after))
    requires after != [] && after[0] == '}'
    ensures ParseMembers(s) == Some(([m], after[1..]))
  {
  }

  lemma ParseMembersNext(s: string, m: Member, after: string, ms: Object, rest: string)
    requires ParseMember(s) == Some((m, after))
    requires after != [] && after[0] == ','
    requires ParseMembers(after[1..]) == Some((ms, rest))
    ensures ParseMembers(s) == Some(([m] + ms, rest))
  {
  }

  lemma ParseObjectText(o: Object, rest: string)
    ensures ParseObject(ObjectText(o) + rest) == Some((o, rest))
  {
    var body := MembersText(o) + "}" + rest;
    Wrap("{", MembersText(o), "}", rest);
    if o == [] {
      assert body == "}" + rest;
      DropOne("}", rest);
      ParseObjectEmpty(ObjectText(o) + rest, rest);
    } else {
      MembersTextStart(o);
      ParseMembersText(o, rest);
      ParseObjectStep(ObjectText(o) + rest, body);
    }
  }

  lemma MembersTextStart(o: Object)
    requires o != []
    ensures |MembersText(o)| > 0 && MembersText(o)[0] == '"'
  {
    var m := MemberText(o[0]);
    assert m[0] == '"';
    if |o| > 1 {
      assert (m + "," + MembersText(o[1..]))[0] == m[0];
    }
  }

  lemma ParseObjectEmpty(s: string, rest: string)
    requires s == "{" + ("}" + rest)
    ensures ParseObject(s) == Some(([], rest))
  {
    assert s[2..] == rest;
  }

  lemma ParseObjectStep(s: string, body: string)
    requires s == "{" + body
    requires body != [] && body[0] != '}'
    ensures ParseObject(s) == ParseMembers(body)
  {
    assert s[1..] == body;
  }

  lemma {:induction false} ParseElementsText(xs: seq<Object>, rest: string)
    requires xs != []
    ensures ParseElements(ElementsText(xs) + "]" + rest) == Some((xs, rest))
    decreases |xs|
  {
    var s := ElementsText(xs) + "]" + rest;
    if |xs| == 1 {
      var after := "]" + rest;
      ElementsTextLast(xs, rest);
      ParseObjectText(xs[0], after);
      ParseElementsLast(s, xs[0], after);
    } else {
      var tail := ElementsText(xs[1..]) + "]" + rest;
      var after := "," + tail;
      ElementsTextCons(xs, rest);
      ParseObjectText(xs[0], after);
      ParseElementsText(xs[1..], rest);
      ParseElementsNext(s, xs[0], after, xs[1..], rest);
    }
  }

  lemma ElementsTextLast(xs: seq<Object>, rest: string)
    requires |xs| == 1
    ensures ElementsText(xs) + "]" + rest == ObjectText(xs[0]) + ("]" + rest)
    ensures ("]" + rest)[1..] == rest && [xs[0]] == xs
  {
    assert ElementsText(xs) == ObjectText(xs[0]);
    Assoc(ObjectText(xs[0]), "]", rest);
    DropOne("]", rest);
  }

  lemma ElementsTextCons(xs: seq<Object>, rest: string)
    requires |xs| > 1
    ensures ElementsText(xs) + "]" + rest == ObjectText(xs[0]) + ("," + (ElementsText(xs[1..]) + "]" + rest))
    ensures ("," + (ElementsText(xs[1..]) + "]" + rest))[1..] == ElementsText(xs[1..]) + "]" + rest
    ensures [xs[0]] + xs[1..] == xs
  {
    assert ElementsText(xs) == ObjectText(xs[0]) + "," + ElementsText(xs[1..]);
    Regroup(ObjectText(xs[0]), ",", ElementsText(xs[1..]), "]", rest);
    DropOne(",", ElementsText(xs[1..]) + "]" + rest);
  }

  lemma ParseElementsLast(s: string, o: Object, after: string)
    requires ParseObject(s) == Some((o, after))
    requires after != [] && after[0] == ']'
    ensures ParseElements(s) == Some(([o], after[1..]))
  {
  }

  lemma ParseElementsNext(s: string, o: Object, after: string, os: seq<Object>, rest: string)
    requires ParseObject(s) == Some((o, after))
    requires after != [] && after[0] == ','
    requires ParseElements(after[1..]) == Some((os, rest))
    ensures ParseElements(s) == Some(([o] + os, rest))
  {
  }

  lemma ElementsTextStart(xs: seq<Object>)
    requires xs != []
    ensures |ElementsText(xs)| > 0 && ElementsText(xs)[0] == '{'
  {
    var o := ObjectText(xs[0]);
    assert o[0] == '{';
    if |xs| > 1 {
      assert (o + "," + ElementsText(xs[1..]))[0] == o[0];
    }
  }

  /** Reading back what was written gives the same list. */
  lemma ParseStringify(xs: seq<Object>)
    ensures Parse(Stringify(xs)) == Some(xs)
  {
    var s := Stringify(xs);
    var body := ElementsText(xs) + "]" + "";
    assert body == ElementsText(xs) + "]";
    Assoc("[", ElementsText(xs), "]");
    if xs == [] {
      assert s == "[]";
    } else {
      ElementsTextStart(xs);
      ParseElementsText(xs, "");
      ParseStep(s, body, xs);
    }
  }

  lemma ParseStep(s: string, body: string, xs: seq<Object>)
    requires s == "[" + body
    requires body != [] && body[0] != ']'
    requires ParseElements(body) == Some((xs, ""))
    ensures Parse(s) == Some(xs)
  {
    assert s[1..] == body;
  }
}

=== FILE: Lists.dfy ===
/**
 * Order-preserving list operations behind `Array.prototype.filter`, both
 * as a predicate filter and as the index filter `filter((_, i) => i !== k)`.
 */
module Lists {

  /** `r` can be obtained from `s` by deleting elements, keeping the order of the rest. */
  predicate IsSubseq<T(==)>(r: seq<T>, s: seq<T>)
    decreases |s|
  {
    r == [] || (s != [] && ((r[0] == s[0] && IsSubseq(r[1..], s[1..])) || IsSubseq(r, s[1..])))
  }

  lemma {:induction false} SubseqRefl<T>(s: seq<T>)
    ensures IsSubseq(s, s)
  {
    if s != [] {
      SubseqRefl(s[1..]);
    }
  }

  /** `s.filter(p)`. */
  function Filter<T>(s: seq<T>, p: T -> bool): seq<T>
  {
    if s == [] then []
    else if p(s[0]) then [s[0]] + Filter(s[1..], p)
    else Filter(s[1..], p)
  }

  /** The filter keeps exactly the elements satisfying `p`, in their original order. */
  lemma {:induction false} FilterSpec<T>(s: seq<T>, p: T -> bool)
    ensures |Filter(s, p)| <= |s|
    ensures forall x :: x in Filter(s, p) <==> x in s && p(x)
    ensures IsSubseq(Filter(s, p), s)
    ensures forall x :: multiset(Filter(s, p))[x] == if p(x) then multiset(s)[x] else 0
  {
    if s != [] {
      FilterSpec(s[1..], p);
      var r := Filter(s, p);
      if p(s[0]) {
        assert r[1..] == Filter(s[1..], p);
        assert r == [s[0]] + Filter(s[1..], p);
      }
      assert s == [s[0]] + s[1..];
      assert multiset(s) == multiset([s[0]]) + multiset(s[1..]);
    }
  }

  /** A filter whose predicate holds everywhere returns the list unchanged. */
  lemma {:induction false} FilterAll<T>(s: seq<T>, p: T -> bool)
    requires forall i :: 0 <= i < |s| ==> p(s[i])
    ensures Filter(s, p) == s
  {
    if s != [] {
      FilterAll(s[1..], p);
      assert [s[0]] + s[1..] == s;
    }
  }

  /** The filter is empty exactly when no element satisfies `p`. */
  lemma {:induction false} FilterEmptyIff<T>(s: seq<T>, p: T -> bool)
    ensures Filter(s, p) == [] <==> forall i :: 0 <= i < |s| ==> !p(s[i])
  {
    if s != [] {
      FilterEmptyIff(s[1..], p);
      if forall i :: 0 <= i < |s[1..]| ==> !p(s[1..][i]) {
        if !p(s[0]) {
          forall i | 0 <= i < |s| ensures !p(s[i]) {
            if i > 0 { assert s[i] == s[1..][i - 1]; }
          }
        }
      } else {
        var i :| 0 <= i < |s[1..]| && p(s[1..][i]);
        assert p(s[i + 1]);
      }
    }
  }

  /** The filter distributes over concatenation. */
  lemma {:induction false} FilterAppend<T>(a: seq<T>, b: seq<T>, p: T -> bool)
    ensures Filter(a + b, p) == Filter(a, p) + Filter(b, p)
  {
    if a == [] {
      assert a + b == b;
    } else {
      assert (a + b)[1..] == a[1..] + b;
      FilterAppend(a[1..], b, p);
    }
  }

  /** Filters whose predicates agree on the list give the same result. */
  lemma {:induction false} FilterCongruent<T>(s: seq<T>, p: T -> bool, q: T -> bool)
    requires forall i :: 0 <= i < |s| ==> p(s[i]) == q(s[i])
    ensures Filter(s, p) == Filter(s, q)
  {
    if s != [] {
      FilterCongruent(s[1..], p, q);
    }
  }

  /** A stricter predicate keeps a subsequence of what a looser one keeps. */
  lemma {:induction false} FilterNarrower<T>(s: seq<T>, p: T -> bool, q: T -> bool)
    requires forall i :: 0 <= i < |s| ==> p(s[i]) ==> q(s[i])
    ensures IsSubseq(Filter(s, p), Filter(s, q))
  {
    if s != [] {
      FilterNarrower(s[1..], p, q);
      var fp, fq := Filter(s[1..], p), Filter(s[1..], q);
      if p(s[0]) {
        assert Filter(s, p) == [s[0]] + fp && Filter(s, q) == [s[0]] + fq;
        assert ([s[0]] + fp)[1..] == fp && ([s[0]] + fq)[1..] == fq;
      } else if q(s[0]) {
        assert Filter(s, q) == [s[0]] + fq;
        assert ([s[0]] + fq)[1..] == fq;
      }
    }
  }

  /** `s.filter((_, i) => i !== k)`: `s` without its element at position `k`, if there is one. */
  function RemoveAt<T>(s: seq<T>, k: int): (r: seq<T>)
    ensures 0 <= k < |s| ==> |r| == |s| - 1
    ensures 0 <= k < |s| ==> forall i :: 0 <= i < k ==> r[i] == s[i]
    ensures 0 <= k < |s| ==> forall i :: k <= i < |r| ==> r[i] == s[i + 1]
    ensures !(0 <= k < |s|) ==> r == s
  {
    if 0 <= k < |s| then s[..k] + s[k + 1..] else s
  }

  lemma {:induction false} RemoveAtMultiset<T>(s: seq<T>, k: int)
    requires 0 <= k < |s|
    ensures multiset(RemoveAt(s, k)) + multiset{s[k]} == multiset(s)
  {
    assert s == s[..k] + [s[k]] + s[k + 1..];
  }
}

=== FILE: MyProperties.dfy ===
/**
 * The "My Properties" page: the stored property list, shown, extended
 * through a modal form that needs a photo, and shortened by deleting one
 * entry; every change to the list is written back to the store.
 */
module MyProperties {

  import opened Wrappers
  import opened Text
  import Json
  import Lists
  import Storage

  const PropertiesKey := "submittedProperties"
  const EditingKey := "editingPropertyIndex"

  const EmptyForm: Json.Object := [
    ("propertyType", Json.Str("")),
    ("address", Json.Str("")),
    ("city", Json.Str("")),
    ("state", Json.Str("")),
    ("zipCode", Json.Str("")),
    ("yearBuilt", Json.Str("")),
    ("rooms", Json.Str("")),
    ("description", Json.Str(""))
  ]

  lemma EmptyFormFields()
    ensures forall i :: 0 <= i < |EmptyForm| ==> EmptyForm[i].1 == Json.Str("")
    ensures !Json.HasKey(EmptyForm, "image")
  {
  }

  /** `{ ...formData, image: uploadedImage }`. */
  function NewProperty(form: Json.Object, image: string): (r: Json.Object)
    ensures Json.Get(r, "image") == Some(Json.Str(image))
    ensures forall k :: k != "image" ==> Json.Get(r, k) == Json.Get(form, k)
    ensures !Json.HasKey(form, "image") ==> r == form + [("image", Json.Str(image))]
  {
    Json.Set(form, "image", Json.Str(image))
  }

  class MyPropertiesPage {
    const store: Storage.LocalStorage
    var properties: seq<Json.Object>
    var isLoading: bool
    var showAddForm: bool
    var uploadedImage: Option<string>
    var formData: Json.Object

    constructor (store: Storage.LocalStorage)
      ensures this.store == store
      ensures properties == [] && isLoading && !showAddForm
      ensures uploadedImage == None && formData == EmptyForm
    {
      this.store := store;
      properties := [];
      isLoading := true;
      showAddForm := false;
      uploadedImage := None;
      formData := EmptyForm;
    }

    /** The list on the page is the list in the store (an absent list reads as empty). */
    predicate Synced()
      reads this, store
    {
      var read := Storage.ReadList(store.items, PropertiesKey);
      !read.Unparsable? && Storage.ListOrEmpty(read) == properties
    }

    /**
     * The mount effect. A stored list that cannot be parsed throws out of
     * the effect, so the page keeps loading.
     */
    method Load()
      modifies this
      ensures var read := Storage.ReadList(store.items, PropertiesKey);
        && (read.Loaded? ==> properties == read.list)
        && (!read.Loaded? ==> properties == old(properties))
        && isLoading == (read.Unparsable? && old(isLoading))
      ensures old(properties) == [] && !Storage.ReadList(store.items, PropertiesKey).Unparsable? ==> Synced()
      ensures showAddForm == old(showAddForm) && uploadedImage == old(uploadedImage)
      ensures formData == old(formData)
    {
      var read := Storage.ReadList(store.items, PropertiesKey);
      if read.Unparsable? {
        return;
      }
      if read.Loaded? {
        properties := read.list;
      }
      isLoading := false;
    }

    method OpenAddForm()
      modifies this
      ensures showAddForm
      ensures properties == old(properties) && uploadedImage == old(uploadedImage)
      ensures formData == old(formData) && isLoading == old(isLoading)
    {
      showAddForm := true;
    }

    /** The reader's `onloadend` in the modal form; `None` when the read failed and the result is `null`. */
    method OnImageRead(imageData: Option<string>)
      modifies this
      ensures uploadedImage == imageData
      ensures properties == old(properties) && showAddForm == old(showAddForm)
      ensures formData == old(formData) && isLoading == old(isLoading)
    {
      uploadedImage := imageData;
    }

    /** "Change Photo". */
    method RemoveImage()
      modifies this
      ensures uploadedImage == None
      ensures properties == old(properties) && showAddForm == old(showAddForm)
      ensures formData == old(formData) && isLoading == old(isLoading)
    {
      uploadedImage := None;
    }

    /** `handleFormChange`. */
    method ChangeField(name: string, value: string)
      modifies this
      ensures formData == Json.Set(old(formData), name, Json.Str(value))
      ensures properties == old(properties) && showAddForm == old(showAddForm)
      ensures uploadedImage == old(uploadedImage) && isLoading == old(isLoading)
    {
      formData := Json.Set(formData, name, Json.Str(value));
    }

    /**
     * `handleAddPropertySubmit`: without a photo nothing happens; with one,
     * exactly one entry is appended and stored, and the form is reset.
     */
    method AddProperty() returns (added: bool)
      modifies this, store
      ensures added <==> old(uploadedImage).Some? && old(uploadedImage).value != ""
      ensures !added ==> properties == old(properties) && store.items == old(store.items)
      ensures !added ==> formData == old(formData) && uploadedImage == old(uploadedImage)
      ensures !added ==> showAddForm == old(showAddForm)
      ensures added ==> properties == old(properties) + [NewProperty(old(formData), old(uploadedImage).value)]
      ensures added ==> store.items == old(store.items)[PropertiesKey := Json.Stringify(properties)]
      ensures added ==> Synced()
      ensures added ==> formData == EmptyForm && uploadedImage == None && !showAddForm
      ensures isLoading == old(isLoading)
    {
      if uploadedImage.None? || uploadedImage.value == "" {
        return false;
      }
      var updated := properties + [NewProperty(formData, uploadedImage.value)];
      properties := updated;
      store.SetItem(PropertiesKey, Json.Stringify(updated));
      Storage.ReadWritten(old(store.items), PropertiesKey, updated);
      showAddForm := false;
      uploadedImage := None;
      formData := EmptyForm;
      added := true;
    }

    /** `handleCloseForm`. */
    method CloseForm()
      modifies this
      ensures !showAddForm && uploadedImage == None && formData == EmptyForm
      ensures properties == old(properties) && isLoading == old(isLoading)
    {
      showAddForm := false;
      uploadedImage := None;
      formData := EmptyForm;
    }

    /**
     * `handleDeleteProperty`: exactly the entry at `index` goes, the others
     * keep their order; an index outside the list changes nothing but the
     * store, which is rewritten either way.
     */
    method DeleteProperty(index: int)
      modifies this, store
      ensures properties == Lists.RemoveAt(old(properties), index)
      ensures 0 <= index < |old(properties)| ==>
        multiset(properties) + multiset{old(properties)[index]} == multiset(old(properties))
      ensures store.items == old(store.items)[PropertiesKey := Json.Stringify(properties)]
      ensures Synced()
      ensures showAddForm == old(showAddForm) && uploadedImage == old(uploadedImage)
      ensures formData == old(formData) && isLoading == old(isLoading)
    {
      var updated := Lists.RemoveAt(properties, index);
      if 0 <= index < |properties| {
        Lists.RemoveAtMultiset(properties, index);
      }
      properties := updated;
      store.SetItem(PropertiesKey, Json.Stringify(updated));
      Storage.ReadWritten(old(store.items), PropertiesKey, updated);
    }

    /** `handleEditProperty`: only the index is stored, as decimal text. */
    method EditProperty(index: nat)
      modifies store
      ensures store.items == old(store.items)[EditingKey := NatToString(index)]
      ensures Json.ParseNumber(store.items[EditingKey]) == Some((index, ""))
      ensures old(Synced()) ==> Synced()
    {
      store.SetItem(EditingKey, NatToString(index));
      Json.ParseNatToString(index, "");
      assert NatToString(index) + "" == NatToString(index);
    }
  }
}

=== FILE: PropertyForm.dfy ===
/**
 * The property details form: it picks up the photo stored by the photo
 * page, and on submit appends the form's fields plus the photo to the
 * stored property list, forgets the stored photo and resets itself.
 */
module PropertyForm {

  import opened Wrappers
  import Json
  import Storage

  const ImageKey := "propertyImage"
  const AnalysisKey := "analysisResult"
  const PropertiesKey := "submittedProperties"

  /** The form's initial and reset value: every field empty, in this order. */
  const EmptyForm: Json.Object := [
    ("propertyType", Json.Str("")),
    ("address", Json.Str("")),
    ("city", Json.Str("")),
    ("state", Json.Str("")),
    ("zipCode", Json.Str("")),
    ("squareFootage", Json.Str("")),
    ("yearBuilt", Json.Str("")),
    ("bedrooms", Json.Str("")),
    ("bathrooms", Json.Str("")),
    ("description", Json.Str(""))
  ]

  lemma EmptyFormFields()
    ensures forall i :: 0 <= i < |EmptyForm| ==> EmptyForm[i].1 == Json.Str("")
    ensures !Json.HasKey(EmptyForm, "image")
  {
  }

  /** `uploadedImage` as a JSON value: a string, or `null`. */
  function ImageValue(image: Option<string>): Json.Value {
    if image.Some? then Json.Str(image.value) else Json.Null
  }

  /** `{ ...formData, image: uploadedImage }`: the stored entry; no analysis goes into it. */
  function Entry(form: Json.Object, image: Option<string>): (r: Json.Object)
    ensures Json.Get(r, "image") == Some(ImageValue(image))
    ensures forall k :: k != "image" ==> Json.Get(r, k) == Json.Get(form, k)
    ensures !Json.HasKey(form, "image") ==> r == form + [("image", ImageValue(image))]
  {
    Json.Set(form, "image", ImageValue(image))
  }

  datatype Screen = Loading | NoPhoto | Submitted | FormScreen

  /** A stored or held image is used only when it is a non-empty string. */
  predicate Truthy(image: Option<string>) {
    image.Some? && image.value != ""
  }

  /** The page's render order: loading, then "No Photo Found", then the success message, then the form. */
  function ScreenFor(isLoading: bool, image: Option<string>, submitted: bool): Screen {
    if isLoading then Loading
    else if !Truthy(image) then NoPhoto
    else if submitted then Submitted
    else FormScreen
  }

  /** The success message needs an image, which a submit has just cleared. */
  lemma SuccessNeedsImage(isLoading: bool, image: Option<string>, submitted: bool)
    ensures ScreenFor(isLoading, image, submitted) == Submitted ==> Truthy(image)
    ensures ScreenFor(false, None, true) == NoPhoto
  {
  }

  /** The render order with the success message checked before the image. */
  function ScreenForCorrected(isLoading: bool, image: Option<string>, submitted: bool): Screen {
    if isLoading then Loading
    else if submitted then Submitted
    else if !Truthy(image) then NoPhoto
    else FormScreen
  }

  /** With the corrected order a finished submit shows its message; otherwise nothing changes. */
  lemma CorrectedShowsSuccess(isLoading: bool, image: Option<string>, submitted: bool)
    ensures !isLoading && submitted ==> ScreenForCorrected(isLoading, image, submitted) == Submitted
    ensures !submitted ==> ScreenForCorrected(isLoading, image, submitted) == ScreenFor(isLoading, image, submitted)
  {
  }

  class PropertyFormPage {
    const store: Storage.LocalStorage
    var uploadedImage: Option<string>
    var isLoading: bool
    var submitted: bool
    var submittedProperties: seq<Json.Object>
    var formData: Json.Object

    constructor (store: Storage.LocalStorage)
      ensures this.store == store
      ensures uploadedImage == None && isLoading && !submitted
      ensures submittedProperties == [] && formData == EmptyForm
    {
      this.store := store;
      uploadedImage := None;
      isLoading := true;
      submitted := false;
      submittedProperties := [];
      formData := EmptyForm;
    }

    function View(): Screen
      reads this
    {
      ScreenFor(isLoading, uploadedImage, submitted)
    }

    /** The mount effect: take the stored photo if there is one, then stop loading. */
    method Load()
      modifies this
      ensures !isLoading
      ensures uploadedImage ==
        if ImageKey in store.items && store.items[ImageKey] != "" then Some(store.items[ImageKey])
        else old(uploadedImage)
      ensures submitted == old(submitted) && formData == old(formData)
      ensures submittedProperties == old(submittedProperties)
    {
      var storedImage := store.GetItem(ImageKey);
      if storedImage.Some? && storedImage.value != "" {
        uploadedImage := storedImage;
      }
      isLoading := false;
    }

    /** `handleFormChange`: one field takes the typed value. */
    method ChangeField(name: string, value: string)
      modifies this
      ensures formData == Json.Set(old(formData), name, Json.Str(value))
      ensures Json.Get(formData, name) == Some(Json.Str(value))
      ensures uploadedImage == old(uploadedImage) && submitted == old(submitted)
      ensures isLoading == old(isLoading) && submittedProperties == old(submittedProperties)
    {
      formData := Json.Set(formData, name, Json.Str(value));
    }

    /**
     * `handleFormSubmit`. The fields are not checked here. When the stored
     * list cannot be parsed the handler throws before changing anything.
     */
    method Submit() returns (ok: bool)
      modifies this, store
      ensures ok <==> !Storage.ReadList(old(store.items), PropertiesKey).Unparsable?
      ensures ok ==> (submittedProperties ==
        Storage.ListOrEmpty(Storage.ReadList(old(store.items), PropertiesKey))
        + [Entry(old(formData), old(uploadedImage))])
      ensures ok ==> (store.items ==
        old(store.items)[PropertiesKey := Json.Stringify(submittedProperties)] - {ImageKey})
      ensures ok ==> Storage.ReadList(store.items, PropertiesKey) == Storage.Loaded(submittedProperties)
      ensures ok ==> ImageKey !in store.items
      ensures ok ==> (AnalysisKey in store.items <==> AnalysisKey in old(store.items))
      ensures ok && AnalysisKey in store.items ==> store.items[AnalysisKey] == old(store.items)[AnalysisKey]
      ensures ok ==> submitted && formData == EmptyForm && uploadedImage == None
      ensures ok ==> isLoading == old(isLoading)
      ensures ok && !isLoading ==> View() == NoPhoto
      ensures !ok ==> store.items == old(store.items) && submittedProperties == old(submittedProperties)
      ensures !ok ==> formData == old(formData) && uploadedImage == old(uploadedImage)
      ensures !ok ==> submitted == old(submitted) && isLoading == old(isLoading)
    {
      var read := Storage.ReadList(store.items, PropertiesKey);
      if read.Unparsable? {
        return false;
      }
      var saved := Storage.ListOrEmpty(read) + [Entry(formData, uploadedImage)];
      var text := Json.Stringify(saved);
      store.SetItem(PropertiesKey, text);
      submittedProperties := saved;
      ghost var written := store.items;
      store.RemoveItem(ImageKey);
      assert PropertiesKey != ImageKey && AnalysisKey != ImageKey && AnalysisKey != PropertiesKey;
      assert store.items[PropertiesKey] == text;
      Storage.ReadWritten(old(store.items), PropertiesKey, saved);
      Storage.ReadListSame(written, store.items, PropertiesKey);
      submitted := true;
      formData := EmptyForm;
      uploadedImage := None;
      ok := true;
    }
  }
}

=== FILE: Reports.dfy ===
/**
 * The admin reports page: a list of reports, newest first, a modal that
 * generates a new report from a type, a date range and a format, and the
 * downloads: CSV text built from fixed metrics, under a file name made
 * from the report's name.
 */
module Reports {

  import opened Wrappers
  import opened Text
  import Lists

  datatype Report = Report(id: int, name: string, date: string, size: string, reportType: string)

  datatype ReportForm = ReportForm(
    reportType: string, dateRange: string, format: string, includeCharts: bool, includeSummary: bool)

  const InitialForm := ReportForm("performance", "monthly", "pdf", true, true)

  const InitialReports: seq<Report> := [
    Report(1, "Monthly Performance Report", "Jan 2024", "2.4 MB", "performance"),
    Report(2, "User Analytics Report", "Jan 2024", "1.8 MB", "users"),
    Report(3, "System Health Report", "Jan 2024", "3.1 MB", "system"),
    Report(4, "Security Audit Report", "Dec 2023", "5.2 MB", "security"),
    Report(5, "Quarterly Review", "Dec 2023", "4.7 MB", "performance")
  ]

  /** The report types offered, as (value, label). */
  const ReportTypes: seq<(string, string)> := [
    ("performance", "Performance Report"),
    ("users", "User Analytics"),
    ("system", "System Health"),
    ("security", "Security Audit")
  ]

  /** `reportTypes.find(r => r.value === value)?.label`. */
  function FindLabel(types: seq<(string, string)>, value: string): (r: Option<string>)
    ensures r.Some? ==> exists i :: 0 <= i < |types| && types[i] == (value, r.value)
    ensures r.None? ==> forall i :: 0 <= i < |types| ==> types[i].0 != value
  {
    if types == [] then None
    else if types[0].0 == value then Some(types[0].1)
    else FindLabel(types[1..], value)
  }

  /** A label interpolated into a template; an unknown type prints as "undefined". */
  function LabelText(value: string): string {
    var found := FindLabel(ReportTypes, value);
    if found.Some? then found.value else "undefined"
  }

  /** The name of a generated report. */
  function GeneratedName(form: ReportForm): string {
    LabelText(form.reportType) + " - " + Capitalize(form.dateRange)
  }

  /**
   * The name is the type's label (or "undefined" for a type not offered),
   * " - ", and the date range with only its first character changed, to
   * upper case.
   */
  lemma GeneratedNameSpec(form: ReportForm)
    ensures var prefix := LabelText(form.reportType) + " - ";
      var name := GeneratedName(form);
      && StartsWith(name, prefix)
      && |name| == |prefix| + |form.dateRange|
      && (form.dateRange != [] ==>
            name[|prefix|] == UpperChar(form.dateRange[0]) && name[|prefix| + 1..] == form.dateRange[1..])
    ensures LabelText(form.reportType) == "undefined" <==>
      forall i :: 0 <= i < |ReportTypes| ==> ReportTypes[i].0 != form.reportType
  {
    var prefix := LabelText(form.reportType) + " - ";
    var name := GeneratedName(form);
    assert name[..|prefix|] == prefix;
    if form.dateRange != [] {
      assert name[|prefix|..] == Capitalize(form.dateRange);
    }
    var found := FindLabel(ReportTypes, form.reportType);
    if found.Some? {
      var i :| 0 <= i < |ReportTypes| && ReportTypes[i] == (form.reportType, found.value);
      assert found.value != "undefined";
    }
  }

  lemma GeneratedNameExample()
    ensures GeneratedName(InitialForm) == "Performance Report - Monthly"
  {
  }

  /* ---- Report content ---- */

  datatype MetricValue = Count(n: nat) | Text(s: string)

  datatype Metric = Metric(name: string, value: MetricValue)

  const Metrics: seq<Metric> := [
    Metric("Total Users", Count(1250)),
    Metric("Active Sessions", Count(340)),
    Metric("Revenue", Text("$45,000")),
    Metric("Growth Rate", Text("12.5%"))
  ]

  /** `${m.value}`. */
  function MetricValueText(v: MetricValue): string {
    match v
    case Count(n) => NatToString(n)
    case Text(s) => s
  }

  function MetricLine(m: Metric): string {
    m.name + "," + MetricValueText(m.value)
  }

  function MetricLines(ms: seq<Metric>): (r: seq<string>)
    ensures |r| == |ms|
    ensures forall i :: 0 <= i < |ms| ==> r[i] == MetricLine(ms[i])
  {
    seq(|ms|, i requires 0 <= i < |ms| => MetricLine(ms[i]))
  }

  const CsvHeader := "Metric,Value"

  /** The CSV branch of `generateReportContent`. */
  function Csv(ms: seq<Metric>): string {
    CsvHeader + "\n" + Join(MetricLines(ms), '\n')
  }

  predicate NoNewline(m: Metric) {
    '\n' !in m.name && '\n' !in MetricValueText(m.value)
  }

  lemma MetricLineNoNewline(m: Metric)
    requires NoNewline(m)
    ensures '\n' !in MetricLine(m)
  {
  }

  /**
   * The CSV text is the header line followed by one `name,value` line per
   * metric, in order.
   */
  lemma CsvLines(ms: seq<Metric>)
    requires ms != []
    requires forall i :: 0 <= i < |ms| ==> NoNewline(ms[i])
    ensures Split(Csv(ms), '\n') == [CsvHeader] + MetricLines(ms)
  {
    var body := MetricLines(ms);
    var lines := [CsvHeader] + body;
    forall i | 0 <= i < |lines|
      ensures '\n' !in lines[i]
    {
      if i > 0 {
        MetricLineNoNewline(ms[i - 1]);
      }
    }
    assert lines[1..] == body;
    assert Join(lines, '\n') == Csv(ms);
    SplitJoin(lines, '\n');
  }

  lemma MetricsHaveNoNewline()
    ensures forall i :: 0 <= i < |Metrics| ==> NoNewline(Metrics[i])
  {
    forall i | 0 <= i < |Metrics|
      ensures NoNewline(Metrics[i])
    {
      var v := MetricValueText(Metrics[i].value);
      assert forall k :: 0 <= k < |v| ==> v[k] != '\n';
    }
  }

  datatype Content =
    | CsvText(text: string)
    | JsonText(pretty: bool, title: string)   // `JSON.stringify(reportData[, null, 2])`

  /** `generateReportContent(report, format)`. */
  function GenerateContent(report: Report, format: string): (c: Content)
    ensures format == "csv" ==> c == CsvText(Csv(Metrics))
    ensures format in {"pdf", "xlsx"} ==> c == JsonText(true, report.name)
    ensures format !in {"csv", "pdf", "xlsx"} ==> c == JsonText(false, report.name)
  {
    if format == "csv" then CsvText(Csv(Metrics))
    else if format == "xlsx" || format == "pdf" then JsonText(true, report.name)
    else JsonText(false, report.name)
  }

  /* ---- Download file names ---- */

  /** A character matched by `\s` in a JavaScript regular expression. */
  predicate IsSpace(c: char) {
    || c == ' ' || c == '\t' || c == '\n' || c == '\r' || c == '\U{000B}' || c == '\U{000C}'
    || c == '\U{00A0}' || c == '\U{1680}' || '\U{2000}' <= c <= '\U{200A}'
    || c == '\U{2028}' || c == '\U{2029}' || c == '\U{202F}' || c == '\U{205F}'
    || c == '\U{3000}' || c == '\U{FEFF}'
  }

  /** `s` without its leading run of whitespace. */
  function DropSpaces(s: string): (r: string)
    ensures |r| <= |s| && r == s[|s| - |r|..]
    ensures r == [] || !IsSpace(r[0])
    ensures s != [] && IsSpace(s[0]) ==> |r| < |s|
    ensures s != [] && !IsSpace(s[0]) ==> r == s
  {
    if s != [] && IsSpace(s[0]) then DropSpaces(s[1..]) else s
  }

  /** `s.replace(/\s+/g, '_')`. */
  function ReplaceSpaceRuns(s: string): (r: string)
    decreases |s|
  {
    if s == [] then ""
    else if IsSpace(s[0]) then "_" + ReplaceSpaceRuns(DropSpaces(s))
    else [s[0]] + ReplaceSpaceRuns(s[1..])
  }

  /** The replacement leaves no whitespace. */
  lemma {:induction false} ReplaceLeavesNoSpace(s: string)
    ensures forall i :: 0 <= i < |ReplaceSpaceRuns(s)| ==> !IsSpace(ReplaceSpaceRuns(s)[i])
    decreases |s|
  {
    if s != [] {
      var t := if IsSpace(s[0]) then DropSpaces(s) else s[1..];
      ReplaceLeavesNoSpace(t);
      assert !IsSpace('_');
    }
  }

  /** A text without whitespace is left as it is. */
  lemma {:induction false} ReplaceKeepsWords(s: string)
    requires forall i :: 0 <= i < |s| ==> !IsSpace(s[i])
    ensures ReplaceSpaceRuns(s) == s
    decreases |s|
  {
    if s != [] {
      assert !IsSpace(s[0]);
      assert forall i :: 0 <= i < |s[1..]| ==> !IsSpace(s[1..][i]);
      ReplaceKeepsWords(s[1..]);
      assert [s[0]] + s[1..] == s;
    }
  }

  /** A run of whitespace between two words becomes one underscore. */
  lemma {:induction false} ReplaceRunBetweenWords(a: string, run: string, b: string)
    requires forall i :: 0 <= i < |a| ==> !IsSpace(a[i])
    requires run != [] && forall i :: 0 <= i < |run| ==> IsSpace(run[i])
    requires b == [] || !IsSpace(b[0])
    ensures ReplaceSpaceRuns(a + run + b) == ReplaceSpaceRuns(a) + "_" + ReplaceSpaceRuns(b)
    decreases |a| + |run|
  {
    if a == [] {
      assert a + run + b == run + b;
      DropRun(run, b);
    } else {
      assert (a + run + b)[1..] == a[1..] + run + b;
      ReplaceRunBetweenWords(a[1..], run, b);
    }
  }

  lemma {:induction false} DropRun(run: string, b: string)
    requires forall i :: 0 <= i < |run| ==> IsSpace(run[i])
    requires b == [] || !IsSpace(b[0])
    ensures DropSpaces(run + b) == b
    decreases |run|
  {
    if run != [] {
      assert (run + b)[1..] == run[1..] + b;
      DropRun(run[1..], b);
    }
  }

  /** The download's file name. */
  function FileName(name: string, format: string): string {
    ReplaceSpaceRuns(name) + "." + format
  }

  /** A download of a listed report: always CSV, whatever the report. */
  function Download(report: Report): (d: (string, Content))
    ensures d.0 == FileName(report.name, "csv")
    ensures d.1 == CsvText(Csv(Metrics))
  {
    (FileName(report.name, "csv"), GenerateContent(report, "csv"))
  }

  /** Every download is the header line and the four metric lines. */
  lemma DownloadLines(report: Report)
    ensures Download(report).1.CsvText?
    ensures Split(Download(report).1.text, '\n') == [CsvHeader] + MetricLines(Metrics)
  {
    MetricsHaveNoNewline();
    CsvLines(Metrics);
  }

  /* ---- Counts ---- */

  function TypeCount(reports: seq<Report>, reportType: string): nat {
    |Lists.Filter(reports, (r: Report) => r.reportType == reportType)|
  }

  function Types(reports: seq<Report>): (ts: seq<string>)
    ensures |ts| == |reports|
    ensures forall i :: 0 <= i < |reports| ==> ts[i] == reports[i].reportType
  {
    seq(|reports|, i requires 0 <= i < |reports| => reports[i].reportType)
  }

  /** The count shown for a type is the number of reports of exactly that type. */
  lemma {:induction false} TypeCountIsMultiplicity(reports: seq<Report>, reportType: string)
    ensures TypeCount(reports, reportType) == multiset(Types(reports))[reportType]
  {
    if reports != [] {
      TypeCountIsMultiplicity(reports[1..], reportType);
      assert Types(reports) == [reports[0].reportType] + Types(reports[1..]);
    }
  }

  class ReportsPage {
    var reports: seq<Report>
    var showModal: bool
    var generating: bool
    var formData: ReportForm
    /** The form as it was when Generate was clicked; the handler keeps using it across its delay. */
    var pendingForm: ReportForm

    /** Report ids are distinct and lie in 1..|reports|, so `|reports| + 1` is always a fresh id. */
    predicate Valid()
      reads this
    {
      && (forall i, j :: 0 <= i < j < |reports| ==> reports[i].id != reports[j].id)
      && (forall i :: 0 <= i < |reports| ==> 1 <= reports[i].id <= |reports|)
    }

    constructor ()
      ensures Valid()
      ensures reports == InitialReports && !showModal && !generating && formData == InitialForm
    {
      reports := InitialReports;
      showModal := false;
      generating := false;
      formData := InitialForm;
      pendingForm := InitialForm;
    }

    method SetModal(open: bool)
      modifies this
      ensures showModal == open
      ensures reports == old(reports) && generating == old(generating) && formData == old(formData)
      ensures pendingForm == old(pendingForm)
    {
      showModal := open;
    }

    /**
     * Any of the modal's `setFormData` handlers. They stay enabled while a
     * report is generating, but a generation already started keeps its form.
     */
    method SetForm(form: ReportForm)
      modifies this
      ensures formData == form
      ensures reports == old(reports) && generating == old(generating) && showModal == old(showModal)
      ensures pendingForm == old(pendingForm)
    {
      formData := form;
    }

    /**
     * `handleGenerateReport` up to the simulated delay: the click captures
     * the current form, and the Generate button is disabled meanwhile.
     */
    method StartGenerate()
      requires !generating
      modifies this
      ensures generating && pendingForm == formData
      ensures reports == old(reports) && showModal == old(showModal) && formData == old(formData)
    {
      generating := true;
      pendingForm := formData;
    }

    /**
     * The rest of `handleGenerateReport`, after the delay: the new report,
     * built from the form captured at the click, goes in front with id
     * `|reports| + 1`, and its download is produced. `monthYear` and
     * `sizeText` stand for the date and the random size.
     */
    method FinishGenerate(monthYear: string, sizeText: string) returns (fileName: string, content: Content)
      requires Valid() && generating
      modifies this
      ensures Valid()
      ensures |reports| == |old(reports)| + 1 && reports[1..] == old(reports)
      ensures reports[0] == Report(|old(reports)| + 1, GeneratedName(pendingForm), monthYear, sizeText, pendingForm.reportType)
      ensures forall i :: 0 <= i < |old(reports)| ==> old(reports)[i].id != reports[0].id
      ensures fileName == FileName(reports[0].name, pendingForm.format)
      ensures content == GenerateContent(reports[0], pendingForm.format)
      ensures !generating && !showModal
      ensures formData == old(formData) && pendingForm == old(pendingForm)
    {
      var form := pendingForm;
      var newReport := Report(|reports| + 1, GeneratedName(form), monthYear, sizeText, form.reportType);
      reports := [newReport] + reports;
      content := GenerateContent(newReport, form.format);
      fileName := FileName(newReport.name, form.format);
      generating := false;
      showModal := false;
    }
  }

  /**
   * A form edited while a report is generating: the report, its file name
   * and its content still follow the form as it was at the click, and the
   * edit stays in the modal for the next report.
   */
  method EditWhileGenerating(page: ReportsPage, edit: ReportForm, monthYear: string, sizeText: string)
    returns (fileName: string, content: Content)
    requires page.Valid() && !page.generating
    modifies page
    ensures page.Valid() && !page.generating && page.formData == edit
    ensures |page.reports| == |old(page.reports)| + 1
    ensures page.reports[0].name == GeneratedName(old(page.formData))
    ensures page.reports[0].reportType == old(page.formData).reportType
    ensures fileName == FileName(page.reports[0].name, old(page.formData).format)
    ensures content == GenerateContent(page.reports[0], old(page.formData).format)
  {
    page.StartGenerate();
    page.SetForm(edit);
    fileName, content := page.FinishGenerate(monthYear, sizeText);
  }

  /** Generating a report raises the count of its type by one and no other count. */
  lemma CountAfterGenerate(old_reports: seq<Report>, newReport: Report, reportType: string)
    ensures TypeCount([newReport] + old_reports, reportType) ==
      TypeCount(old_reports, reportType) + (if newReport.reportType == reportType then 1 else 0)
  {
    Lists.FilterAppend([newReport], old_reports, (r: Report) => r.reportType == reportType);
  }
}

=== FILE: RiskAnalysis.dfy ===
/**
 * The backend's risk assessment of a set of detections: the rule-based
 * fallback (score, level and urgency bands, summary and recommendations),
 * the structured answer built when the language model's reply holds no
 * JSON, and the choice between them and the model's own answer.
 */
module RiskAnalysis {

  import opened Wrappers
  import opened Text
  import Lists

  datatype RiskLevel = Low | Medium | High | Critical
  datatype Urgency = LowUrgency | Moderate | Urgent | Immediate

  function LevelName(l: RiskLevel): string {
    match l
    case Low => "LOW"
    case Medium => "MEDIUM"
    case High => "HIGH"
    case Critical => "CRITICAL"
  }

  function UrgencyName(u: Urgency): string {
    match u
    case LowUrgency => "LOW"
    case Moderate => "MODERATE"
    case Urgent => "URGENT"
    case Immediate => "IMMEDIATE"
  }

  /** A structured assessment; `method` and `rawResponse` are present only when the source adds those keys. */
  datatype Analysis = Analysis(
    riskScore: int, level: RiskLevel, summary: string, recommendations: seq<string>,
    urgency: Urgency, analysisMethod: Option<string>, rawResponse: Option<string>)

  /* ---- Arithmetic as Python does it ---- */

  /** Python's `int(x)` on a float: truncation toward zero. */
  function Trunc(x: real): (n: int)
    ensures x >= 0.0 ==> n as real <= x < n as real + 1.0
    ensures x < 0.0 ==> n as real - 1.0 < x <= n as real
  {
    if x >= 0.0 then x.Floor else -((-x).Floor)
  }

  function Sum(xs: seq<real>): real {
    if xs == [] then 0.0 else xs[0] + Sum(xs[1..])
  }

  lemma {:induction false} SumNonNegative(xs: seq<real>)
    requires forall i :: 0 <= i < |xs| ==> xs[i] >= 0.0
    ensures Sum(xs) >= 0.0
  {
    if xs != [] {
      SumNonNegative(xs[1..]);
    }
  }

  /** `x` rounded to the nearest integer, ties to the even one, as Python's formatting rounds. */
  function RoundHalfEven(x: real): (n: int)
    ensures n as real - 0.5 <= x <= n as real + 0.5
    ensures x - x.Floor as real != 0.5 ==> n as real - 0.5 < x < n as real + 0.5
    ensures x - x.Floor as real == 0.5 ==> n % 2 == 0
  {
    var f := x.Floor;
    var frac := x - f as real;
    if frac > 0.5 then f + 1
    else if frac < 0.5 then f
    else if f % 2 == 0 then f else f + 1
  }

  /** `f"{x:.1%}"`: the value in percent with one decimal. */
  function FormatPercent(x: real): string {
    var n := RoundHalfEven(x * 1000.0);
    var m: nat := if n < 0 then -n else n;
    (if n < 0 then "-" else "") + NatToString(m / 10) + "." + [DigitChar(m % 10)] + "%"
  }

  /**
   * For a non-negative value the text reads back as the value in tenths of
   * a percent, within half a tenth: digits, a point, one digit, a percent sign.
   */
  lemma FormatPercentReadsBack(x: real)
    requires x >= 0.0
    ensures var t := FormatPercent(x);
      && |t| >= 4 && t[|t| - 1] == '%' && t[|t| - 3] == '.' && IsDigit(t[|t| - 2])
      && (forall i :: 0 <= i < |t| - 3 ==> IsDigit(t[i]))
      && var tenths := DigitsValue(t[..|t| - 3]) * 10 + DigitValue(t[|t| - 2]);
         tenths as real - 0.5 <= x * 1000.0 <= tenths as real + 0.5
  {
    var n := RoundHalfEven(x * 1000.0);
    assert n >= 0;
    var t := FormatPercent(x);
    var whole := NatToString(n / 10);
    assert t == whole + "." + [DigitChar(n % 10)] + "%";
    assert t[..|t| - 3] == whole;
    DigitsValueOfNatToString(n / 10);
  }

  lemma FormatPercentExample()
    ensures FormatPercent(0.85) == "85.0%"
  {
    assert RoundHalfEven(850.0) == 850;
    assert NatToString(8) == "8";
    assert NatToString(85) == "85";
    assert DigitChar(0) == '0';
  }

  /* ---- Rule-based fallback ---- */

  /** The level and urgency for a score: the bands at 80, 60 and 30. */
  function Band(score: real): (lu: (RiskLevel, Urgency))
    ensures lu.0 == Critical <==> score >= 80.0
    ensures lu.0 == High <==> 60.0 <= score < 80.0
    ensures lu.0 == Medium <==> 30.0 <= score < 60.0
    ensures lu.0 == Low <==> score < 30.0
  {
    if score >= 80.0 then (Critical, Immediate)
    else if score >= 60.0 then (High, Urgent)
    else if score >= 30.0 then (Medium, Moderate)
    else (Low, LowUrgency)
  }

  /** Level and urgency always come in the same four pairs. */
  lemma BandPairs(score: real)
    ensures Band(score) in {(Critical, Immediate), (High, Urgent), (Medium, Moderate), (Low, LowUrgency)}
    ensures Band(score).1 == Immediate <==> Band(score).0 == Critical
    ensures Band(score).1 == Urgent <==> Band(score).0 == High
    ensures Band(score).1 == Moderate <==> Band(score).0 == Medium
    ensures Band(score).1 == LowUrgency <==> Band(score).0 == Low
  {
  }

  /** The band boundaries are whole numbers, so the truncated score lies in the same band. */
  lemma BandOfTrunc(score: real)
    ensures Band(Trunc(score) as real) == Band(score)
  {
  }

  function HighConfidenceCount(confidences: seq<real>): nat {
    |Lists.Filter(confidences, (c: real) => c > 0.7)|
  }

  function Average(confidences: seq<real>): real {
    if confidences == [] then 0.0 else Sum(confidences) / |confidences| as real
  }

  /** `min(total * 15 + high * 20 + avg * 30, 100)`, before truncation. */
  function RawScore(confidences: seq<real>): real {
    var s := (|confidences| * 15) as real + (HighConfidenceCount(confidences) * 20) as real
      + Average(confidences) * 30.0;
    if s < 100.0 then s else 100.0
  }

  const NoDefectsSummary := "No structural defects detected. Building appears to be in good condition."
  const FallbackMethod := "rule_based_fallback"

  function Summary(confidences: seq<real>): string {
    var n := |confidences|;
    if n == 0 then NoDefectsSummary
    else if n == 1 then
      "One crack detected with " + FormatPercent(Average(confidences)) + " confidence. Minor structural concern identified."
    else
      NatToString(n) + " cracks detected with average " + FormatPercent(Average(confidences))
      + " confidence. Multiple structural concerns identified."
  }

  function Recommendations(n: nat): seq<string> {
    if n == 0 then ["Continue regular maintenance schedule"]
    else if n == 1 then ["Monitor crack for changes", "Consider professional assessment"]
    else ["Professional structural inspection required", "Consider immediate safety assessment"]
  }

  /** `generate_fallback_analysis`, over the detections' confidences. */
  function Fallback(confidences: seq<real>): (a: Analysis)
    ensures a.analysisMethod == Some(FallbackMethod) && a.rawResponse.None?
    ensures (a.level, a.urgency) == Band(RawScore(confidences))
  {
    var raw := RawScore(confidences);
    var (level, urgency) := Band(raw);
    Analysis(Trunc(raw), level, Summary(confidences), Recommendations(|confidences|), urgency, Some(FallbackMethod), None)
  }

  lemma RawScoreRange(confidences: seq<real>)
    requires forall i :: 0 <= i < |confidences| ==> confidences[i] >= 0.0
    ensures 0.0 <= RawScore(confidences) <= 100.0
  {
    if confidences != [] {
      SumNonNegative(confidences);
      var avg := Sum(confidences) / |confidences| as real;
      assert avg >= 0.0;
    }
  }

  /** With non-negative confidences the score is a whole number from 0 to 100. */
  lemma FallbackScoreRange(confidences: seq<real>)
    requires forall i :: 0 <= i < |confidences| ==> confidences[i] >= 0.0
    ensures 0 <= Fallback(confidences).riskScore <= 100
  {
    RawScoreRange(confidences);
  }

  /** The reported score lies in the band of the reported level, and level and urgency are paired. */
  lemma FallbackScoreInBand(confidences: seq<real>)
    ensures var a := Fallback(confidences); (a.level, a.urgency) == Band(a.riskScore as real)
  {
    BandOfTrunc(RawScore(confidences));
  }

  /** No detections: score 0, LOW/LOW, the all-clear summary and a single recommendation. */
  lemma FallbackNoDetections()
    ensures var a := Fallback([]);
      && a.riskScore == 0 && a.level == Low && a.urgency == LowUrgency
      && a.summary == NoDefectsSummary && |a.recommendations| == 1
  {
  }

  /** Any detection at all brings exactly two recommendations. */
  lemma FallbackRecommendations(confidences: seq<real>)
    ensures |Fallback(confidences).recommendations| == (if confidences == [] then 1 else 2)
  {
  }

  /** A single detection with a confidence between 0 and 1 scores 15 to 65: never CRITICAL. */
  lemma FallbackSingle(c: real)
    requires 0.0 <= c <= 1.0
    ensures 15 <= Fallback([c]).riskScore <= 65
    ensures Fallback([c]).level != Critical
  {
    assert Sum([c]) == c;
    if c > 0.7 {
      assert Lists.Filter([c], (x: real) => x > 0.7) == [c];
    } else {
      assert Lists.Filter([c], (x: real) => x > 0.7) == [];
    }
  }

  lemma MockRawScore()
    ensures RawScore([0.85]) == 60.5
  {
    assert Sum([0.85]) == 0.85;
    assert Lists.Filter([0.85], (x: real) => x > 0.7) == [0.85];
    assert Average([0.85]) == 0.85;
  }

  lemma MockSummary()
    ensures Summary([0.85]) == "One crack detected with " + "85.0%" + " confidence. Minor structural concern identified."
  {
    assert Sum([0.85]) == 0.85;
    assert Average([0.85]) == 0.85;
    FormatPercentExample();
    var pct := FormatPercent(Average([0.85]));
    assert pct == "85.0%";
    assert Summary([0.85]) == "One crack detected with " + pct + " confidence. Minor structural concern identified.";
  }

  /** The mock detection's assessment. */
  lemma FallbackOfMock()
    ensures Fallback([0.85]) == Analysis(60, High,
      "One crack detected with " + "85.0%" + " confidence. Minor structural concern identified.",
      ["Monitor crack for changes", "Consider professional assessment"], Urgent, Some(FallbackMethod), None)
  {
    MockRawScore();
    MockSummary();
    assert Trunc(60.5) == 60;
  }

  /* ---- The language-model path ---- */

  /** `llm_response[:200] + "..."` when longer than 200 characters. */
  function Shorten(response: string): (s: string)
    ensures |s| <= 203
    ensures |response| <= 200 ==> s == response
    ensures |response| > 200 ==> StartsWith(s, response[..200]) && EndsWith(s, "...")
  {
    if |response| > 200 then response[..200] + "..." else response
  }

  /** The answer built when the model's reply contains no JSON object. */
  function NoJsonAnalysis(n: nat, response: string): (a: Analysis)
    ensures a.riskScore == if 25 * n < 100 then 25 * n else 100
    ensures a.level == High <==> n > 3
    ensures a.level == Medium <==> n <= 3
    ensures a.urgency == Urgent <==> n > 3
    ensures a.urgency == Moderate <==> n <= 3
    ensures |a.summary| <= 203
    ensures a.recommendations == ["Professional inspection required"]
    ensures a.analysisMethod.None? && a.rawResponse.None?
  {
    Analysis(
      if 25 * n < 100 then 25 * n else 100,
      if n > 3 then High else Medium,
      Shorten(response),
      ["Professional inspection required"],
      if n > 3 then Urgent else Moderate,
      None, None)
  }

  /** The no-JSON score never exceeds the cap and reaches it from four detections on. */
  lemma NoJsonScoreCap(n: nat, response: string)
    ensures 0 <= NoJsonAnalysis(n, response).riskScore <= 100
    ensures NoJsonAnalysis(n, response).riskScore == 100 <==> n >= 4
  {
  }

  /** What became of the model's reply once a JSON object was looked for in it. */
  datatype Extraction = NoJson | Decoded(json: string) | DecodeError

  /**
   * How the call to the language model went: no connection, an exception,
   * no row or a `NULL` column, or the text of the reply.
   */
  datatype LlmCall = NotConfigured | CallFailed | NoReply | Reply(text: string, extraction: Extraction)

  /** `result and result[0]`: a row came back and its reply text is non-empty. */
  predicate Answered(call: LlmCall) {
    call.Reply? && call.text != ""
  }

  /** The assessment returned: a structured one, or the object the model wrote (kept opaque). */
  datatype Assessment = Structured(analysis: Analysis) | ModelJson(json: string)

  /** `analyze_with_cortex_llm`, with the database call replaced by its outcome. */
  function AnalyzeWithLlm(confidences: seq<real>, call: LlmCall): (r: Assessment)
    ensures Answered(call) && call.extraction.Decoded? <==> r.ModelJson?
    ensures r.ModelJson? ==> r.json == call.extraction.json
    ensures Answered(call) && call.extraction.NoJson? ==>
      r == Structured(NoJsonAnalysis(|confidences|, call.text))
    ensures Answered(call) && call.extraction.DecodeError? ==>
      r == Structured(Fallback(confidences).(rawResponse := Some(call.text)))
    ensures !Answered(call) ==> r == Structured(Fallback(confidences))
  {
    match call
    case NotConfigured => Structured(Fallback(confidences))
    case CallFailed => Structured(Fallback(confidences))
    case NoReply => Structured(Fallback(confidences))
    case Reply(text, extraction) =>
      if text == "" then Structured(Fallback(confidences))
      else match extraction
      case NoJson => Structured(NoJsonAnalysis(|confidences|, text))
      case Decoded(json) => ModelJson(json)
      case DecodeError => Structured(Fallback(confidences).(rawResponse := Some(text)))
  }

  /** Every structured answer except the no-JSON one is marked as the rule-based fallback. */
  lemma FallbackMarked(confidences: seq<real>, call: LlmCall)
    requires AnalyzeWithLlm(confidences, call).Structured?
    ensures var a := AnalyzeWithLlm(confidences, call).analysis;
      a.analysisMethod == Some(FallbackMethod) <==> !(Answered(call) && call.extraction.NoJson?)
  {
  }
}

=== FILE: RouteGuard.dfy ===
/**
 * The request middleware of the web front end: a decision, taken for every
 * request path, between passing the request on and redirecting it, based
 * on a fixed list of protected path prefixes and on whether either of two
 * authentication cookies holds a value.
 */
module RouteGuard {

  import opened Wrappers
  import opened Text

  datatype Decision =
    | Redirect(path: string)            // redirect to a fixed path of the same origin
    | RedirectToLogin(from: string)     // redirect to /portal/login?from=<from>
    | PassThrough                       // NextResponse.next()

  const DashboardPath := "/portal/dashboard"
  const PortalRoot := "/portal/"
  const LoginPath := "/portal/login"
  const SignupPath := "/portal/signup"

  const ProtectedRoutes: seq<string> := [
    "/portal/",
    "/portal/my-properties",
    "/portal/cart",
    "/portal/complaints",
    "/portal/property-form",
    "/admin",
    "/staff"
  ]

  /** `routes.some((route) => pathname.startsWith(route))`. */
  function SomePrefix(pathname: string, routes: seq<string>): (r: bool)
    ensures r <==> exists i :: 0 <= i < |routes| && StartsWith(pathname, routes[i])
  {
    if routes == [] then false
    else StartsWith(pathname, routes[0]) || SomePrefix(pathname, routes[1..])
  }

  predicate IsProtected(pathname: string) {
    SomePrefix(pathname, ProtectedRoutes)
  }

  /**
   * `cookies.get('sb-auth-token')?.value || cookies.get('sb-access-token')?.value`:
   * the first cookie when it holds a non-empty value, otherwise the second.
   */
  function AuthToken(authCookie: Option<string>, accessCookie: Option<string>): Option<string> {
    if authCookie.Some? && authCookie.value != "" then authCookie else accessCookie
  }

  /** `!!authToken`. */
  predicate HasSession(authCookie: Option<string>, accessCookie: Option<string>) {
    var token := AuthToken(authCookie, accessCookie);
    token.Some? && token.value != ""
  }

  /** The middleware. */
  function Guard(pathname: string, authCookie: Option<string>, accessCookie: Option<string>): Decision {
    var hasSession := HasSession(authCookie, accessCookie);
    if pathname == DashboardPath then Redirect(PortalRoot)
    else if IsProtected(pathname) && !hasSession then RedirectToLogin(pathname)
    else if (pathname == LoginPath || pathname == SignupPath) && hasSession then Redirect(DashboardPath)
    else PassThrough
  }

  /* ---- Properties ---- */

  lemma {:induction false} StartsWithTrans(s: string, p: string, q: string)
    requires StartsWith(s, p) && StartsWith(p, q)
    ensures StartsWith(s, q)
  {
    assert s[..|q|] == s[..|p|][..|q|];
  }

  /**
   * The seven prefixes reduce to three, because the four other portal routes
   * start with "/portal/".
   */
  lemma {:induction false} ProtectedIff(pathname: string)
    ensures IsProtected(pathname) <==>
      StartsWith(pathname, "/portal/") || StartsWith(pathname, "/admin") || StartsWith(pathname, "/staff")
  {
    var routes := ProtectedRoutes;
    if IsProtected(pathname) {
      var i :| 0 <= i < |routes| && StartsWith(pathname, routes[i]);
      if 1 <= i <= 4 {
        assert StartsWith(routes[i], "/portal/");
        StartsWithTrans(pathname, routes[i], "/portal/");
      }
    } else {
      assert !StartsWith(pathname, routes[0]);
      assert !StartsWith(pathname, routes[5]);
      assert !StartsWith(pathname, routes[6]);
    }
  }

  /** Which paths are protected, including the quirks of plain prefix matching. */
  lemma ProtectedExamples()
    ensures IsProtected("/portal/login") && IsProtected("/portal/signup")
    ensures IsProtected("/administrator")
    ensures IsProtected("/staff/tickets/42")
  {
    assert StartsWith("/portal/login", "/portal/");
    assert StartsWith("/portal/signup", "/portal/");
    assert StartsWith("/administrator", "/admin");
    assert StartsWith("/staff/tickets/42", "/staff");
  }

  lemma UnprotectedExamples()
    ensures !IsProtected("/portal")
    ensures !IsProtected("/")
  {
    ProtectedIff("/portal");
    assert "/portal"[1] == 'p';
    assert !StartsWith("/portal", "/admin") && !StartsWith("/portal", "/staff");
    ProtectedIff("/");
  }

  /** A session exists iff either cookie holds a non-empty value. */
  lemma SessionIff(authCookie: Option<string>, accessCookie: Option<string>)
    ensures HasSession(authCookie, accessCookie) <==>
      (authCookie.Some? && authCookie.value != "") || (accessCookie.Some? && accessCookie.value != "")
  {
  }

  /** The complete decision table of the middleware. */
  lemma GuardCases(pathname: string, authCookie: Option<string>, accessCookie: Option<string>)
    ensures var d := Guard(pathname, authCookie, accessCookie);
            var s := HasSession(authCookie, accessCookie);
            && (pathname == DashboardPath ==> d == Redirect("/portal/"))
            && (pathname != DashboardPath && IsProtected(pathname) && !s ==> d == RedirectToLogin(pathname))
            && (pathname in {LoginPath, SignupPath} && s ==> d == Redirect("/portal/dashboard"))
            && (d == PassThrough <==>
                  pathname != DashboardPath && (!IsProtected(pathname) || s)
                  && !(pathname in {LoginPath, SignupPath} && s))
  {
  }

  /** Without a session, the login page itself is sent to the login page. */
  lemma LoginRedirectsToItself(authCookie: Option<string>, accessCookie: Option<string>)
    requires !HasSession(authCookie, accessCookie)
    ensures Guard(LoginPath, authCookie, accessCookie) == RedirectToLogin(LoginPath)
  {
    ProtectedExamples();
  }

  /* ---- Corrected guard (see the Findings in the README) ---- */

  /** The guard with the login and signup pages exempt from protection. */
  function GuardCorrected(pathname: string, authCookie: Option<string>, accessCookie: Option<string>): Decision {
    var hasSession := HasSession(authCookie, accessCookie);
    var isAuthPage := pathname == LoginPath || pathname == SignupPath;
    if pathname == DashboardPath then Redirect(PortalRoot)
    else if IsProtected(pathname) && !isAuthPage && !hasSession then RedirectToLogin(pathname)
    else if isAuthPage && hasSession then Redirect(DashboardPath)
    else PassThrough
  }

  /**
   * The corrected guard lets a visitor without a session reach the login and
   * signup pages, never redirects a request to the path it came from, and
   * decides every other path as the original does.
   */
  lemma GuardCorrectedSpec(pathname: string, authCookie: Option<string>, accessCookie: Option<string>)
    ensures !HasSession(authCookie, accessCookie) && pathname in {LoginPath, SignupPath} ==>
      GuardCorrected(pathname, authCookie, accessCookie) == PassThrough
    ensures GuardCorrected(pathname, authCookie, accessCookie) != RedirectToLogin(LoginPath)
    ensures GuardCorrected(pathname, authCookie, accessCookie) != Redirect(pathname)
    ensures pathname !in {LoginPath, SignupPath} ==>
      GuardCorrected(pathname, authCookie, accessCookie) == Guard(pathname, authCookie, accessCookie)
  {
  }
}

=== FILE: Services.dfy ===
/** The admin services grid with its three filter buttons. */
module Services {

  import opened Text
  import Lists

  datatype Service = Service(id: nat, name: string, status: string, uptime: string, requests: string)

  const AllServices: seq<Service> := [
    Service(1, "Email Service", "Active", "99.9%", "1.2M"),
    Service(2, "Database Service", "Active", "99.8%", "2.5M"),
    Service(3, "Cache Service", "Active", "99.95%", "800K"),
    Service(4, "Payment Gateway", "Maintenance", "99.7%", "500K"),
    Service(5, "Notification Service", "Active", "99.85%", "3.1M")
  ]

  /** The filter values offered by the buttons. */
  const FilterOptions: seq<string> := ["all", "active", "maintenance"]

  /** `filteredServices`: everything for "all", otherwise the services whose lower-cased status is the filter. */
  function FilteredServices(services: seq<Service>, filter: string): (r: seq<Service>)
    ensures filter == "all" ==> r == services
    ensures Lists.IsSubseq(r, services)
    ensures filter != "all" ==> forall s :: s in r <==> s in services && ToLower(s.status) == filter
  {
    if filter == "all" then
      Lists.SubseqRefl(services);
      services
    else
      var r := Lists.Filter(services, (s: Service) => ToLower(s.status) == filter);
      Lists.FilterSpec(services, (s: Service) => ToLower(s.status) == filter);
      r
  }

  /** A filter value with an upper-case letter (other than through "all") shows nothing. */
  lemma UpperCaseFilterShowsNothing(services: seq<Service>, filter: string)
    requires filter != "all" && !IsLowerCase(filter)
    ensures FilteredServices(services, filter) == []
  {
    forall i | 0 <= i < |services|
      ensures ToLower(services[i].status) != filter
    {
      ToLowerIsLowerCase(services[i].status);
    }
    Lists.FilterEmptyIff(services, (s: Service) => ToLower(s.status) == filter);
  }

  /** Every service appears under the filter named by its own status. */
  lemma OwnStatusShows(services: seq<Service>, s: Service)
    requires s in services
    ensures s in FilteredServices(services, ToLower(s.status))
  {
  }

  /** The button caption: `f.charAt(0).toUpperCase() + f.slice(1)`. */
  function FilterLabel(f: string): string {
    Capitalize(f)
  }

  /** A caption differs from its lower-case filter value only in case. */
  lemma CaptionNamesFilter(f: string)
    requires IsLowerCase(f)
    ensures |FilterLabel(f)| == |f|
    ensures ToLower(FilterLabel(f)) == f
  {
    LowerOfCapitalize(f);
    LowerCaseUnchanged(f);
  }

  lemma FilterLabels()
    ensures FilterLabel("all") == "All"
    ensures FilterLabel("active") == "Active"
    ensures FilterLabel("maintenance") == "Maintenance"
  {
  }

  /** Every status in the grid is reachable through one of the buttons. */
  lemma StatusesReachable()
    ensures forall i :: 0 <= i < |AllServices| ==> ToLower(AllServices[i].status) in FilterOptions
  {
    assert ToLower("Active") == "active";
    assert ToLower("Maintenance") == "maintenance";
  }
}

=== FILE: StaffSidebar.dfy ===
/** Which staff sidebar link is highlighted for the current path. */
module StaffSidebar {

  import opened Text

  /** `pathname === href || pathname.startsWith(href + '/')`. */
  predicate IsActive(pathname: string, href: string) {
    pathname == href || StartsWith(pathname, href + "/")
  }

  /** A link is active exactly on its own path and on the paths below it, not on a longer sibling name. */
  lemma IsActiveIff(pathname: string, href: string)
    ensures IsActive(pathname, href) <==>
      StartsWith(pathname, href) && (|pathname| == |href| || pathname[|href|] == '/')
  {
    if StartsWith(pathname, href) && |pathname| > |href| && pathname[|href|] == '/' {
      assert pathname[..|href| + 1] == pathname[..|href|] + [pathname[|href|]];
    }
    if StartsWith(pathname, href + "/") {
      assert pathname[..|href|] == (href + "/")[..|href|];
    }
  }

  datatype Link = Dashboard | TicketsLink | ReportsLink | SettingsLink

  function Href(link: Link): string {
    match link
    case Dashboard => "/staff"
    case TicketsLink => "/staff/tickets"
    case ReportsLink => "/staff/reports"
    case SettingsLink => "/staff/settings"
  }

  /** The dashboard link also insists on the exact path; the others use `IsActive` alone. */
  predicate Highlighted(pathname: string, link: Link) {
    if link == Dashboard then IsActive(pathname, "/staff") && pathname == "/staff"
    else IsActive(pathname, Href(link))
  }

  lemma DashboardOnlyExact(pathname: string)
    ensures Highlighted(pathname, Dashboard) <==> pathname == "/staff"
  {
  }

  /** The character that tells the three sub-sections apart. */
  lemma SectionChar(pathname: string, link: Link)
    requires link != Dashboard && Highlighted(pathname, link)
    ensures |pathname| > 7 && pathname[7] == Href(link)[7]
  {
    var h := Href(link);
    if pathname != h {
      assert pathname[..|h| + 1] == h + "/";
      assert pathname[7] == (h + "/")[7];
    }
  }

  /** At most one link is highlighted for any path. */
  lemma AtMostOneHighlighted(pathname: string, a: Link, b: Link)
    requires Highlighted(pathname, a) && Highlighted(pathname, b)
    ensures a == b
  {
    if a != b {
      if a == Dashboard {
        SectionChar(pathname, b);
      } else if b == Dashboard {
        SectionChar(pathname, a);
      } else {
        SectionChar(pathname, a);
        SectionChar(pathname, b);
      }
    }
  }

  lemma Examples()
    ensures Highlighted("/staff/tickets/42", TicketsLink)
    ensures !Highlighted("/staff/ticketsarchive", TicketsLink)
    ensures !Highlighted("/staff/tickets", Dashboard)
  {
    IsActiveIff("/staff/ticketsarchive", "/staff/tickets");
    assert "/staff/tickets/42"[..15] == "/staff/tickets/";
  }
}

=== FILE: Storage.dfy ===
/**
 * The browser's `localStorage`: one string-keyed, string-valued store that
 * every page reads and writes, and the pages' common way of reading a
 * stored list back.
 */
module Storage {

  import opened Wrappers
  import Json

  class LocalStorage {
    var items: map<string, string>

    constructor (initial: map<string, string>)
      ensures items == initial
    {
      items := initial;
    }

    /** `localStorage.getItem(key)`; `None` stands for `null`. */
    function GetItem(key: string): (r: Option<string>)
      reads this
      ensures r.Some? <==> key in items
      ensures r.Some? ==> r.value == items[key]
    {
      if key in items then Some(items[key]) else None
    }

    /** `localStorage.setItem(key, value)`. */
    method SetItem(key: string, value: string)
      modifies this
      ensures items == old(items)[key := value]
    {
      items := items[key := value];
    }

    /** `localStorage.removeItem(key)`. */
    method RemoveItem(key: string)
      modifies this
      ensures items == old(items) - {key}
    {
      items := items - {key};
    }
  }

  /** What a page finds under a list key. */
  datatype ListRead =
    | Absent                              // no item, or the empty string (both falsy)
    | Loaded(list: seq<Json.Object>)
    | Unparsable                          // `JSON.parse` would throw

  /**
   * `const saved = localStorage.getItem(key); if (saved) JSON.parse(saved)`,
   * and equally `JSON.parse(localStorage.getItem(key) || '[]')`.
   */
  function ReadList(items: map<string, string>, key: string): (r: ListRead)
    ensures r.Absent? <==> key !in items || items[key] == ""
  {
    if key !in items || items[key] == "" then Absent
    else
      match Json.Parse(items[key])
      case Some(xs) => Loaded(xs)
      case None => Unparsable
  }

  /** The list a page holds after reading, when it starts from `[]`. */
  function ListOrEmpty(r: ListRead): seq<Json.Object> {
    if r.Loaded? then r.list else []
  }

  /** Reading a list looks at its own key only. */
  lemma ReadListSame(a: map<string, string>, b: map<string, string>, key: string)
    requires key in a <==> key in b
    requires key in a ==> a[key] == b[key]
    ensures ReadList(a, key) == ReadList(b, key)
  {
  }

  /** A list written under `key` is read back unchanged. */
  lemma ReadWritten(items: map<string, string>, key: string, xs: seq<Json.Object>)
    ensures ReadList(items[key := Json.Stringify(xs)], key) == Loaded(xs)
  {
    Json.ParseStringify(xs);
  }
}

=== FILE: Text.dfy ===
/**
 * String operations shared by the pages and the backend: prefix and suffix
 * tests (`startsWith`, `endsWith`), substring search (`includes`), ASCII
 * case mapping (`toLowerCase`, `charAt(0).toUpperCase()`), decimal
 * rendering of naturals, and `join` / split on a separator character.
 */
module Text {

  import opened Wrappers

  predicate StartsWith(s: string, prefix: string) {
    |prefix| <= |s| && s[..|prefix|] == prefix
  }

  predicate EndsWith(s: string, suffix: string) {
    |suffix| <= |s| && s[|s| - |suffix|..] == suffix
  }

  /** `t` occurs in `s` starting at position `i`. */
  predicate OccursAt(t: string, s: string, i: int) {
    0 <= i <= |s| - |t| && s[i..i + |t|] == t
  }

  /** `t` occurs somewhere in `s`: the meaning of `s.includes(t)`. */
  ghost predicate OccursIn(t: string, s: string) {
    exists i :: OccursAt(t, s, i)
  }

  /** `s.includes(t)`, computed by trying each start position in turn. */
  function Includes(s: string, t: string): bool
    decreases |s|
  {
    if StartsWith(s, t) then true
    else if s == [] then false
    else Includes(s[1..], t)
  }

  /** The search `Includes` finds `t` exactly when `t` occurs in `s`. */
  lemma {:induction false} IncludesIff(s: string, t: string)
    ensures Includes(s, t) <==> OccursIn(t, s)
    decreases |s|
  {
    if StartsWith(s, t) {
      assert OccursAt(t, s, 0);
    } else if s != [] {
      IncludesIff(s[1..], t);
      if Includes(s[1..], t) {
        var i :| OccursAt(t, s[1..], i);
        OccursShift(t, s, i + 1);
      } else {
        forall i | 0 <= i <= |s| - |t|
          ensures !OccursAt(t, s, i)
        {
          if i == 0 {
            assert s[..|t|] == s[0..|t|];
          } else {
            OccursShift(t, s, i);
          }
        }
      }
    }
  }

  /** An occurrence past the first position is one in the tail, shifted by one. */
  lemma OccursShift(t: string, s: string, i: int)
    requires s != [] && 1 <= i
    ensures OccursAt(t, s, i) <==> OccursAt(t, s[1..], i - 1)
  {
    if i <= |s| - |t| {
      var a, b := s[i..i + |t|], s[1..][i - 1..i - 1 + |t|];
      assert |a| == |b|;
      forall k | 0 <= k < |a|
        ensures a[k] == b[k]
      {
        assert a[k] == s[i + k] && b[k] == s[1..][i - 1 + k];
      }
      assert a == b;
    }
  }

  lemma EmptyIncluded(s: string)
    ensures Includes(s, "")
  {
    assert s[..0] == "";
  }

  function LowerChar(c: char): (r: char)
    ensures 'A' <= c <= 'Z' ==> r as int == c as int + 32
    ensures !('A' <= c <= 'Z') ==> r == c
  {
    if 'A' <= c <= 'Z' then (c as int + 32) as char else c
  }

  function UpperChar(c: char): (r: char)
    ensures 'a' <= c <= 'z' ==> r as int == c as int - 32
    ensures !('a' <= c <= 'z') ==> r == c
  {
    if 'a' <= c <= 'z' then (c as int - 32) as char else c
  }

  /** `toLowerCase()` / Python's `lower()`, ASCII letters only. */
  function ToLower(s: string): (r: string)
    ensures |r| == |s|
    ensures forall i :: 0 <= i < |s| ==> r[i] == LowerChar(s[i])
  {
    seq(|s|, i requires 0 <= i < |s| => LowerChar(s[i]))
  }

  predicate IsLowerCase(s: string) {
    forall i :: 0 <= i < |s| ==> LowerChar(s[i]) == s[i]
  }

  lemma ToLowerIsLowerCase(s: string)
    ensures IsLowerCase(ToLower(s))
    ensures ToLower(ToLower(s)) == ToLower(s)
  {
  }

  lemma LowerCaseUnchanged(s: string)
    requires IsLowerCase(s)
    ensures ToLower(s) == s
  {
  }

  /** `field.toLowerCase().includes(term.toLowerCase())`. */
  predicate IncludesIgnoringCase(field: string, term: string) {
    Includes(ToLower(field), ToLower(term))
  }

  /** Lower-casing the search term first changes nothing. */
  lemma IncludesIgnoringCaseOfLower(field: string, term: string)
    ensures IncludesIgnoringCase(field, ToLower(term)) == IncludesIgnoringCase(field, term)
  {
    ToLowerIsLowerCase(term);
  }

  /** The empty term is found in every field. */
  lemma EmptyTermIncluded(field: string)
    ensures IncludesIgnoringCase(field, "")
  {
    assert ToLower("") == "";
    EmptyIncluded(ToLower(field));
  }

  /** `s.charAt(0).toUpperCase() + s.slice(1)`. */
  function Capitalize(s: string): (r: string)
    ensures |r| == |s|
    ensures s != [] ==> r[0] == UpperChar(s[0])
    ensures s == [] || r[1..] == s[1..]
  {
    if s == [] then [] else [UpperChar(s[0])] + s[1..]
  }

  /** Capitalising never changes the lower-cased form of a string. */
  lemma LowerOfCapitalize(s: string)
    ensures ToLower(Capitalize(s)) == ToLower(s)
  {
    if s != [] {
      var c := s[0];
      assert LowerChar(UpperChar(c)) == LowerChar(c);
      forall i | 0 <= i < |s|
        ensures ToLower(Capitalize(s))[i] == ToLower(s)[i]
      {
      }
    }
  }

  predicate IsDigit(c: char) {
    '0' <= c <= '9'
  }

  function DigitChar(d: nat): (c: char)
    requires d < 10
    ensures IsDigit(c)
  {
    ('0' as int + d) as char
  }

  function DigitValue(c: char): (d: nat)
    requires IsDigit(c)
    ensures d < 10
  {
    c as int - '0' as int
  }

  /** Decimal rendering of a natural number, as `String(n)` or `n.toString()` give it. */
  function NatToString(n: nat): (r: string)
    ensures |r| > 0
    ensures forall i :: 0 <= i < |r| ==> IsDigit(r[i])
  {
    if n < 10 then [DigitChar(n)] else NatToString(n / 10) + [DigitChar(n % 10)]
  }

  /** The value of a string of decimal digits. */
  function DigitsValue(s: string): nat
    requires forall i :: 0 <= i < |s| ==> IsDigit(s[i])
  {
    if s == [] then 0 else DigitsValue(s[..|s| - 1]) * 10 + DigitValue(s[|s| - 1])
  }

  lemma {:induction false} DigitsValueOfNatToString(n: nat)
    ensures DigitsValue(NatToString(n)) == n
  {
    if n >= 10 {
      var s := NatToString(n);
      assert s[..|s| - 1] == NatToString(n / 10);
      DigitsValueOfNatToString(n / 10);
    }
  }

  /** `lines.join([sep])`. */
  function Join(lines: seq<string>, sep: char): (r: string)
    decreases |lines|
  {
    if lines == [] then ""
    else if |lines| == 1 then lines[0]
    else lines[0] + [sep] + Join(lines[1..], sep)
  }

  /** The text before the first `sep` in `s`, and what follows it (if any). */
  function SplitFirst(s: string, sep: char): (r: (string, Option<string>))
    ensures sep !in r.0
    ensures r.1.None? ==> r.0 == s
    ensures r.1.Some? ==> s == r.0 + [sep] + r.1.value
    decreases |s|
  {
    if s == [] then ("", None)
    else if s[0] == sep then ("", Some(s[1..]))
    else
      var (head, tail) := SplitFirst(s[1..], sep);
      assert tail.Some? ==> s == [s[0]] + head + [sep] + tail.value;
      ([s[0]] + head, tail)
  }

  /** `s.split(sep)`: the pieces between occurrences of `sep`. */
  function Split(s: string, sep: char): (r: seq<string>)
    ensures |r| > 0
    decreases |s|
  {
    var (head, tail) := SplitFirst(s, sep);
    match tail
    case None => [head]
    case Some(rest) => [head] + Split(rest, sep)
  }

  /** Splitting a joined list gives the list back when no piece holds the separator. */
  lemma {:induction false} SplitJoin(lines: seq<string>, sep: char)
    requires |lines| > 0
    requires forall i :: 0 <= i < |lines| ==> sep !in lines[i]
    ensures Split(Join(lines, sep), sep) == lines
  {
    if |lines| == 1 {
      SplitFirstNoSep(lines[0], sep);
    } else {
      var rest := Join(lines[1..], sep);
      SplitFirstAt(lines[0], rest, sep);
      SplitJoin(lines[1..], sep);
    }
  }

  lemma {:induction false} SplitFirstNoSep(s: string, sep: char)
    requires sep !in s
    ensures SplitFirst(s, sep) == (s, None)
  {
    if s != [] {
      SplitFirstNoSep(s[1..], sep);
    }
  }

  lemma {:induction false} SplitFirstAt(a: string, b: string, sep: char)
    requires sep !in a
    ensures SplitFirst(a + [sep] + b, sep) == (a, Some(b))
  {
    if a != [] {
      assert (a + [sep] + b)[1..] == a[1..] + [sep] + b;
      SplitFirstAt(a[1..], b, sep);
      assert [a[0]] + a[1..] == a;
    } else {
      assert (a + [sep] + b)[1..] == b;
    }
  }

  /** Python's `s.split(c)[-1]`: the text after the last `c`, or all of `s`. */
  function AfterLast(s: string, c: char): (r: string)
    ensures c !in r
    ensures |r| <= |s| && r == s[|s| - |r|..]
  {
    if s == [] then ""
    else if s[|s| - 1] == c then ""
    else AfterLast(s[..|s| - 1], c) + [s[|s| - 1]]
  }

  lemma {:induction false} AfterLastOf(a: string, b: string, c: char)
    requires c !in b
    ensures AfterLast(a + [c] + b, c) == b
    decreases |b|
  {
    if b == [] {
      AfterLastEndsAt(a + [c], c);
    } else {
      var init, last := b[..|b| - 1], b[|b| - 1];
      assert a + [c] + b == (a + [c] + init) + [last];
      AfterLastSnoc(a + [c] + init, last, c);
      AfterLastOf(a, init, c);
      assert b == init + [last];
    }
  }

  lemma AfterLastEndsAt(s: string, c: char)
    requires s != [] && s[|s| - 1] == c
    ensures AfterLast(s, c) == ""
  {
  }

  lemma AfterLastSnoc(s: string, x: char, c: char)
    requires x != c
    ensures AfterLast(s + [x], c) == AfterLast(s, c) + [x]
  {
    assert (s + [x])[..|s + [x]| - 1] == s;
  }
}

=== FILE: Tickets.dfy ===
/**
 * The staff ticket list: a text search over subject, customer and id,
 * ignoring case, combined with an exact status filter.
 */
module Tickets {

  import opened Text
  import Lists

  datatype Ticket = Ticket(
    id: string, customer: string, subject: string, category: string,
    priority: string, status: string, assignedAt: string)

  const AllTickets: seq<Ticket> := [
    Ticket("TKT-001", "John Smith", "Service Setup Issue", "Technical", "High", "In Progress", "2h ago"),
    Ticket("TKT-002", "Sarah Johnson", "Account Upgrade Request", "Account", "Medium", "In Progress", "4h ago"),
    Ticket("TKT-003", "Mike Davis", "Payment Processing", "Billing", "High", "Pending Review", "1h ago"),
    Ticket("TKT-004", "Emma Wilson", "Feature Request Discussion", "Feature", "Low", "Completed", "1d ago"),
    Ticket("TKT-005", "Alex Brown", "Password Reset", "Account", "Medium", "Completed", "2d ago"),
    Ticket("TKT-006", "Lisa Anderson", "Service Outage Report", "Technical", "High", "In Progress", "30m ago"),
    Ticket("TKT-007", "Chris Taylor", "Integration Help", "Technical", "Medium", "Pending Review", "3h ago"),
    Ticket("TKT-008", "Diana Martinez", "Refund Request", "Billing", "High", "Pending Review", "5h ago")
  ]

  /** The values of the status drop-down; "all" switches the filter off. */
  const StatusOptions: seq<string> := ["all", "In Progress", "Pending Review", "Completed"]

  predicate MatchesSearch(t: Ticket, term: string) {
    || IncludesIgnoringCase(t.subject, term)
    || IncludesIgnoringCase(t.customer, term)
    || IncludesIgnoringCase(t.id, term)
  }

  predicate MatchesStatus(t: Ticket, status: string) {
    status == "all" || t.status == status
  }

  predicate Shown(t: Ticket, term: string, status: string) {
    MatchesSearch(t, term) && MatchesStatus(t, status)
  }

  /** `filteredTickets`: the tickets that match both the search and the status, in list order. */
  function FilteredTickets(tickets: seq<Ticket>, term: string, status: string): (r: seq<Ticket>)
    ensures Lists.IsSubseq(r, tickets)
    ensures forall t :: t in r <==> t in tickets && Shown(t, term, status)
  {
    var r := Lists.Filter(tickets, (t: Ticket) => Shown(t, term, status));
    Lists.FilterSpec(tickets, (t: Ticket) => Shown(t, term, status));
    r
  }

  /** With an empty search and "all" statuses every ticket is listed. */
  lemma {:induction false} NoFilterListsAll(tickets: seq<Ticket>)
    ensures FilteredTickets(tickets, "", "all") == tickets
  {
    forall i | 0 <= i < |tickets|
      ensures Shown(tickets[i], "", "all")
    {
      EmptyTermIncluded(tickets[i].subject);
    }
    Lists.FilterAll(tickets, (t: Ticket) => Shown(t, "", "all"));
  }

  /** The "no tickets found" message shows exactly when no ticket matches. */
  lemma EmptyMessageIff(tickets: seq<Ticket>, term: string, status: string)
    ensures |FilteredTickets(tickets, term, status)| == 0 <==>
      forall i :: 0 <= i < |tickets| ==> !Shown(tickets[i], term, status)
  {
    Lists.FilterEmptyIff(tickets, (t: Ticket) => Shown(t, term, status));
  }

  /** Choosing a status only ever narrows the "all" list, keeping its order. */
  lemma StatusNarrows(tickets: seq<Ticket>, term: string, status: string)
    ensures Lists.IsSubseq(FilteredTickets(tickets, term, status), FilteredTickets(tickets, term, "all"))
  {
    Lists.FilterNarrower(tickets, (t: Ticket) => Shown(t, term, status), (t: Ticket) => Shown(t, term, "all"));
  }

  /** The search ignores the case of the term. */
  lemma SearchIgnoresCase(tickets: seq<Ticket>, term: string, status: string)
    ensures FilteredTickets(tickets, ToLower(term), status) == FilteredTickets(tickets, term, status)
  {
    forall i | 0 <= i < |tickets|
      ensures Shown(tickets[i], ToLower(term), status) == Shown(tickets[i], term, status)
    {
      var t := tickets[i];
      IncludesIgnoringCaseOfLower(t.subject, term);
      IncludesIgnoringCaseOfLower(t.customer, term);
      IncludesIgnoringCaseOfLower(t.id, term);
    }
    Lists.FilterCongruent(tickets, (t: Ticket) => Shown(t, ToLower(term), status), (t: Ticket) => Shown(t, term, status));
  }

  /** Every listed ticket carries one of the offered statuses, so each is reachable through the drop-down. */
  lemma StatusesOffered()
    ensures forall i :: 0 <= i < |AllTickets| ==> AllTickets[i].status in StatusOptions[1..]
  {
  }
}

=== FILE: Upload.dfy ===
/**
 * The `/analyze` endpoint: the file-name check, the name the upload is
 * stored under, and the response built from inference and the risk
 * assessment. File contents, identifiers, the outcome of writing the
 * upload to disk and the database outcome are parameters.
 */
module Upload {

  import opened Wrappers
  import opened Text
  import Detections
  import RiskAnalysis

  const InvalidTypeDetail := "Invalid file type. Use JPG, PNG, or BMP."

  /** `filename.lower().endswith(('.jpg', '.jpeg', '.png', '.bmp'))`. */
  predicate ValidName(filename: string) {
    var lower := ToLower(filename);
    EndsWith(lower, ".jpg") || EndsWith(lower, ".jpeg") || EndsWith(lower, ".png") || EndsWith(lower, ".bmp")
  }

  /** `filename.split(".")[-1]`: the text after the last dot, in its original case. */
  function Extension(filename: string): string {
    AfterLast(filename, '.')
  }

  /** The name the upload is written under: a fresh identifier and the extension. */
  function StoredName(fileId: string, filename: string): string {
    fileId + "." + Extension(filename)
  }

  /** The extension is the last dot-free piece, whatever comes before it. */
  lemma ExtensionOf(stem: string, ext: string)
    requires '.' !in ext
    ensures Extension(stem + "." + ext) == ext
  {
    AfterLastOf(stem, ext, '.');
  }

  lemma LowerIsDot(c: char)
    ensures LowerChar(c) == '.' <==> c == '.'
  {
  }

  /** A name whose lower-cased form ends in `.e` has an extension that lower-cases to `e`. */
  lemma ExtensionOfSuffix(filename: string, suffix: string)
    requires |suffix| > 0 && suffix[0] == '.' && '.' !in suffix[1..]
    requires EndsWith(ToLower(filename), suffix)
    ensures ToLower(Extension(filename)) == suffix[1..]
  {
    var e := suffix[1..];
    var n, k := |filename|, |e|;
    var lower := ToLower(filename);
    assert lower[n - k - 1..] == suffix;
    assert lower[n - k - 1] == '.';
    LowerIsDot(filename[n - k - 1]);
    var ext := filename[n - k..];
    forall i | 0 <= i < k
      ensures ext[i] != '.'
    {
      assert lower[n - k + i] == e[i];
      LowerIsDot(filename[n - k + i]);
    }
    assert filename == filename[..n - k - 1] + "." + ext;
    ExtensionOf(filename[..n - k - 1], ext);
    assert ToLower(ext) == lower[n - k..];
  }

  /** An accepted name's extension is one of the four image types, in some letter case. */
  lemma ValidExtension(filename: string)
    requires ValidName(filename)
    ensures ToLower(Extension(filename)) in {"jpg", "jpeg", "png", "bmp"}
  {
    var lower := ToLower(filename);
    if EndsWith(lower, ".jpg") {
      ExtensionOfSuffix(filename, ".jpg");
      assert ".jpg"[1..] == "jpg";
    } else if EndsWith(lower, ".jpeg") {
      ExtensionOfSuffix(filename, ".jpeg");
      assert ".jpeg"[1..] == "jpeg";
    } else if EndsWith(lower, ".png") {
      ExtensionOfSuffix(filename, ".png");
      assert ".png"[1..] == "png";
    } else {
      ExtensionOfSuffix(filename, ".bmp");
      assert ".bmp"[1..] == "bmp";
    }
  }

  /** Lower-casing a text lower-cases its tail the same way. */
  lemma LowerEndsWith(a: string, b: string)
    ensures EndsWith(ToLower(a + b), ToLower(b))
  {
    var l := ToLower(a + b);
    assert l[|l| - |b|..] == ToLower(b);
  }

  lemma ValidByEnding(name: string, e: string)
    requires e in {"jpg", "jpeg", "png", "bmp"}
    requires EndsWith(ToLower(name), "." + e)
    ensures ValidName(name)
  {
    if e == "jpg" {
      assert "." + e == ".jpg";
    } else if e == "jpeg" {
      assert "." + e == ".jpeg";
    } else if e == "png" {
      assert "." + e == ".png";
    } else {
      assert "." + e == ".bmp";
    }
  }

  /** The stored name of an accepted upload is itself an accepted name. */
  lemma StoredNameValid(fileId: string, filename: string)
    requires ValidName(filename)
    ensures ValidName(StoredName(fileId, filename))
  {
    var ext := Extension(filename);
    ValidExtension(filename);
    StoredNameEnding(fileId, ext);
    ValidByEnding(StoredName(fileId, filename), ToLower(ext));
  }

  lemma StoredNameEnding(fileId: string, ext: string)
    ensures EndsWith(ToLower(fileId + "." + ext), "." + ToLower(ext))
  {
    assert fileId + "." + ext == fileId + ("." + ext);
    LowerEndsWith(fileId, "." + ext);
    assert ToLower("." + ext) == "." + ToLower(ext);
  }

  lemma ExtensionExample()
    ensures Extension("house.photo.JPG") == "JPG"
  {
    assert "house.photo" + "." + "JPG" == "house.photo.JPG";
    ExtensionOf("house.photo", "JPG");
  }

  lemma UpperCaseNameAccepted()
    ensures ValidName("House.JPG")
  {
    assert ToLower("House.JPG") == "house.jpg";
  }

  lemma TextNameRejected()
    ensures !ValidName("notes.txt")
  {
    var lower := ToLower("notes.txt");
    assert lower[5..] == ".txt";
    assert lower[4..] == "s.txt";
  }

  datatype Body = Body(
    success: bool, inspectionId: string, imageName: string,
    detections: seq<Detections.Detection>, totalDetections: nat,
    riskAnalysis: RiskAnalysis.Assessment, savedToDatabase: bool)

  datatype Response = Ok(body: Body) | HttpError(status: nat, detail: string)

  /** The text of an `HTTPException`: its status code, a colon and its detail. */
  function HttpExceptionText(status: nat, detail: string): string {
    NatToString(status) + ": " + detail
  }

  function Confidences(ds: seq<Detections.Detection>): (cs: seq<real>)
    ensures |cs| == |ds|
    ensures forall i :: 0 <= i < |ds| ==> cs[i] == ds[i].confidence
  {
    seq(|ds|, i requires 0 <= i < |ds| => ds[i].confidence)
  }

  /**
   * How writing the upload under its stored name ended; a failure carries
   * the text of the exception raised.
   */
  datatype WriteOutcome = Written | WriteFailed(message: string)

  /**
   * Everything after the file-name check: the upload is written, then
   * inference, assessment and the response body. Any exception on the way
   * is answered 500 with its text after `Analysis failed: `.
   */
  function Process(filename: string, inspectionId: string, write: WriteOutcome,
                   inference: Detections.Inference, call: RiskAnalysis.LlmCall, saved: bool): (r: Response)
    ensures write.WriteFailed? ==> r == HttpError(500, "Analysis failed: " + write.message)
    ensures write.Written? && inference.Raised? ==> r == HttpError(500, "Analysis failed: " + inference.message)
    ensures r.HttpError? <==> write.WriteFailed? || inference.Unreadable? || inference.Raised?
    ensures r.HttpError? ==> r.status == 500
    ensures r.Ok? ==> r.body.totalDetections == |r.body.detections| && r.body.imageName == filename
  {
    if write.WriteFailed? then HttpError(500, "Analysis failed: " + write.message)
    else match inference
    case Unreadable => HttpError(500, "Analysis failed: Could not load image")
    case Raised(message) => HttpError(500, "Analysis failed: " + message)
    case NoSession =>
      var ds := [Detections.MockDetection];
      Ok(Body(true, inspectionId, filename, ds, |ds|, RiskAnalysis.AnalyzeWithLlm(Confidences(ds), call), saved))
    case Ran(rows) =>
      var ds := Detections.KeptDetections(rows);
      Ok(Body(true, inspectionId, filename, ds, |ds|, RiskAnalysis.AnalyzeWithLlm(Confidences(ds), call), saved))
  }

  /**
   * `analyze_image` as written: the 400 raised for a bad file name is caught
   * by the handler's own `except Exception` and re-raised as a 500.
   */
  function AnalyzeImage(filename: string, inspectionId: string, write: WriteOutcome, inference: Detections.Inference,
                        call: RiskAnalysis.LlmCall, saved: bool): (r: Response)
    ensures !ValidName(filename) ==>
      r == HttpError(500, "Analysis failed: " + HttpExceptionText(400, InvalidTypeDetail))
    ensures ValidName(filename) ==> r == Process(filename, inspectionId, write, inference, call, saved)
  {
    if !ValidName(filename) then
      HttpError(500, "Analysis failed: " + HttpExceptionText(400, InvalidTypeDetail))
    else
      Process(filename, inspectionId, write, inference, call, saved)
  }

  /** As written, no request is ever answered with status 400. */
  lemma NeverBadRequest(filename: string, inspectionId: string, write: WriteOutcome, inference: Detections.Inference,
                        call: RiskAnalysis.LlmCall, saved: bool)
    ensures var r := AnalyzeImage(filename, inspectionId, write, inference, call, saved);
      r.HttpError? ==> r.status == 500
  {
  }

  /** A text file is turned away with a server error whose detail embeds the intended 400. */
  lemma TextFileGetsServerError(inspectionId: string, write: WriteOutcome, inference: Detections.Inference,
                                call: RiskAnalysis.LlmCall, saved: bool)
    ensures AnalyzeImage("notes.txt", inspectionId, write, inference, call, saved)
      == HttpError(500, "Analysis failed: " + ("400: " + InvalidTypeDetail))
  {
    TextNameRejected();
    BadRequestText();
  }

  lemma BadRequestText()
    ensures HttpExceptionText(400, InvalidTypeDetail) == "400: " + InvalidTypeDetail
  {
    assert NatToString(4) == "4";
    assert NatToString(40) == "40";
    assert NatToString(400) == "400";
  }

  /** `analyze_image` with the 400 passed through instead of being wrapped. */
  function AnalyzeImageCorrected(filename: string, inspectionId: string, write: WriteOutcome, inference: Detections.Inference,
                                 call: RiskAnalysis.LlmCall, saved: bool): (r: Response)
    ensures ValidName(filename) ==> r == Process(filename, inspectionId, write, inference, call, saved)
  {
    if !ValidName(filename) then HttpError(400, InvalidTypeDetail)
    else Process(filename, inspectionId, write, inference, call, saved)
  }

  /**
   * Corrected, a request is answered 400 exactly when its file name is not
   * an accepted image name; a successful answer counts its own detections
   * and carries the assessment of exactly those detections.
   */
  lemma CorrectedResponses(filename: string, inspectionId: string, write: WriteOutcome, inference: Detections.Inference,
                           call: RiskAnalysis.LlmCall, saved: bool)
    ensures var r := AnalyzeImageCorrected(filename, inspectionId, write, inference, call, saved);
      && (r.HttpError? && r.status == 400 <==> !ValidName(filename))
      && (r.HttpError? <==> !ValidName(filename) || write.WriteFailed? || inference.Unreadable? || inference.Raised?)
      && (ValidName(filename) && write.WriteFailed? ==> r == HttpError(500, "Analysis failed: " + write.message))
      && (r.Ok? ==>
            && r.body.success && r.body.imageName == filename && r.body.inspectionId == inspectionId
            && r.body.totalDetections == |r.body.detections|
            && r.body.riskAnalysis == RiskAnalysis.AnalyzeWithLlm(Confidences(r.body.detections), call)
            && r.body.savedToDatabase == saved)
      && (r.Ok? && inference.Ran? ==> r.body.detections == Detections.KeptDetections(inference.rows))
      && (r.Ok? && inference.NoSession? ==> r.body.detections == [Detections.MockDetection])
  {
  }
}

=== FILE: Users.dfy ===
/** The users table: a search over name and email, ignoring case. */
module Users {

  import opened Text
  import Lists

  datatype User = User(id: nat, name: string, email: string, role: string, status: string)

  const AllUsers: seq<User> := [
    User(1, "John Smith", "john@example.com", "Admin", "Active"),
    User(2, "Jane Doe", "jane@example.com", "Manager", "Active"),
    User(3, "Mike Johnson", "mike@example.com", "User", "Active"),
    User(4, "Sarah Williams", "sarah@example.com", "User", "Inactive"),
    User(5, "Tom Brown", "tom@example.com", "Manager", "Active")
  ]

  predicate MatchesSearch(u: User, query: string) {
    IncludesIgnoringCase(u.name, query) || IncludesIgnoringCase(u.email, query)
  }

  /** `filteredUsers`: the users whose name or email contains the query, in list order. */
  function FilteredUsers(users: seq<User>, query: string): (r: seq<User>)
    ensures Lists.IsSubseq(r, users)
    ensures forall u :: u in r <==> u in users && MatchesSearch(u, query)
  {
    var r := Lists.Filter(users, (u: User) => MatchesSearch(u, query));
    Lists.FilterSpec(users, (u: User) => MatchesSearch(u, query));
    r
  }

  /** An empty query lists every user. */
  lemma {:induction false} EmptyQueryListsAll(users: seq<User>)
    ensures FilteredUsers(users, "") == users
  {
    forall i | 0 <= i < |users|
      ensures MatchesSearch(users[i], "")
    {
      EmptyTermIncluded(users[i].name);
    }
    Lists.FilterAll(users, (u: User) => MatchesSearch(u, ""));
  }

  /** The search ignores the case of the query. */
  lemma SearchIgnoresCase(users: seq<User>, query: string)
    ensures FilteredUsers(users, ToLower(query)) == FilteredUsers(users, query)
  {
    forall i | 0 <= i < |users|
      ensures MatchesSearch(users[i], ToLower(query)) == MatchesSearch(users[i], query)
    {
      IncludesIgnoringCaseOfLower(users[i].name, query);
      IncludesIgnoringCaseOfLower(users[i].email, query);
    }
    Lists.FilterCongruent(users, (u: User) => MatchesSearch(u, ToLower(query)), (u: User) => MatchesSearch(u, query));
  }

  /** Role and status play no part in the match. */
  lemma RoleAndStatusIgnored(u: User, query: string, role: string, status: string)
    ensures MatchesSearch(u.(role := role, status := status), query) == MatchesSearch(u, query)
  {
  }

  /** A longer query never finds more users: a user matching `q + more` also matches `q`. */
  lemma {:induction false} LongerQueryNarrows(users: seq<User>, q: string, more: string)
    ensures Lists.IsSubseq(FilteredUsers(users, q + more), FilteredUsers(users, q))
  {
    forall i | 0 <= i < |users|
      ensures MatchesSearch(users[i], q + more) ==> MatchesSearch(users[i], q)
    {
      PrefixIncludedIgnoringCase(users[i].name, q, more);
      PrefixIncludedIgnoringCase(users[i].email, q, more);
    }
    Lists.FilterNarrower(users, (u: User) => MatchesSearch(u, q + more), (u: User) => MatchesSearch(u, q));
  }

  lemma PrefixIncludedIgnoringCase(field: string, q: string, more: string)
    ensures IncludesIgnoringCase(field, q + more) ==> IncludesIgnoringCase(field, q)
  {
    var f, lq, lm := ToLower(field), ToLower(q), ToLower(more);
    assert ToLower(q + more) == lq + lm;
    if Includes(f, lq + lm) {
      IncludesIff(f, lq + lm);
      var i :| 0 <= i <= |f| - |lq + lm| && OccursAt(lq + lm, f, i);
      assert f[i..i + |lq|] == (lq + lm)[..|lq|] == lq;
      assert OccursAt(lq, f, i);
      IncludesIff(f, lq);
    }
  }
}

=== FILE: Wrappers.dfy ===
/** Option and Result, the two failure-carrying shapes the model uses. */
module Wrappers {

  datatype Option<+T> = None | Some(value: T)

  datatype Result<+T, +E> = Success(value: T) | Failure(error: E)
}
